=== FILE: README.md ===
# reflex_ai_fast image pages, modelled in Dafny

The repository is a Reflex web app. Its pages send prompts, uploaded images
and size choices to image-generation services and show the images that
come back. This project models the logic inside those pages' event
handlers as pure Dafny functions over immutable datatypes, and proves
what the handlers promise.

Every handler is a function from the page state and the outcomes of its
outside calls to a `Run(view, alerts, sent)`:
- `view` holds the new `image_urls`, `processing` and `complete`;
- `alerts` holds the `window_alert`s yielded, in order;
- `sent` holds the outbound requests, in order.

"Nothing is sent before validation" is therefore `sent == []`.

The modules follow the source:

| module | what it models |
|---|---|
| `Results` | `Option` and `Result`. |
| `Text` | Python's `str.split` on one character, `sep.join`, `split(sep)[0]` and `[-1]`, `startswith`, an ASCII case-insensitive substring search, and `int(s)` / `str(i)` for decimal integers. |
| `Base64` | The padded base 64 encoding of section 4 of RFC 4648, with a decoder as its partner. |
| `CommonTool` | `image_to_base64`: the MIME type from the file extension and the data-URI shape. |
| `Page` | The view fields, alerts, failures and HTTP replies shared by the handlers. |
| `Responses` | The `data[].url` reply shape of the image-generation endpoint. |
| `Upload` | `handle_upload` (identical on the gemini and kontext pages). |
| `SizeOption` | The `WIDTHxHEIGHTx(RATIO)` option tables and the three ways of taking an option apart. |
| `HtmlExtract` | `extract_first_html_code_block`. |
| `Cover` | The cover page: configuration, allow-list check, fan-out and aggregation. |
| `GeminiImage`, `Kontext`, `Jimeng`, `Gpt4o`, `Aichart` | One module per page. |

Some modelling choices:
- **Regular-expression search.** `re.search` with lazy `.*?` under
  DOTALL is modelled by successive case-insensitive searches. The result
  is proved to be the componentwise least match: start, `<html`, `>` and
  `</html>` positions. This is the leftmost match with lazy extension.
- **Case folding.** IGNORECASE and `.lower()` are ASCII case folding.
  None of the letters involved has a non-ASCII case partner.
- **Order of results.** `asyncio.gather` returns results in the order the
  requests were issued, whatever order they complete in. The aggregation
  is a fold over that sequence.
- **Kontext poller.** `_poll_for_result` is a state machine over whole
  time units. A parameter `latency(k)` gives how long the k-th status
  request takes, and each pending reply adds a sleep of exactly 2.
- **The aichart empty prompt.** `get_image` on the aichart page is a
  plain generator, and on an empty prompt it `return`s the alert instead
  of yielding it. Reflex shows a generator handler's return value like the
  values it yields, so the model shows the alert, with `image_urls`
  already cleared.
- **The aichart non-200 branch.** It adds an `int` to a `str`, which
  raises `TypeError`. The alert that surfaces is therefore the generic
  handler's, carrying that error.

Two behaviours of the code worth stating plainly:
- The cover page's results stay in the order the requests were issued,
  because `asyncio.gather` returns them in that order whatever order they
  complete in.
- `extract_first_html_code_block` returns `None` when no block is found;
  it raises nothing.

## Model

| member | source | states |
|---|---|---|
| Text.Split | image_gen_page/pages/cover.py:18 | `s.split(sep)` never yields an empty list, and no piece holds the separator (JoinSplit and SplitJoin make it the inverse of `join`). |
| Text.ParseInt | image_gen_page/pages/cover.py:87-88 | `int(s)` succeeds exactly on an optional sign followed by ASCII digits, and then gives their signed decimal value. |
| Text.IntToString | image_gen_page/pages/gpt4o.py:53 | `str(i)` is canonical decimal text: no leading zero, and a `-` in front exactly for negatives. |
| Text.JoinSplit | image_gen_page/pages/cover.py:18 | Joining the pieces of `s.split(sep)` with `sep` gives back `s`. |
| Text.SplitJoin | image_gen_page/pages/cover.py:18 | A non-empty list of separator-free pieces is recovered by splitting its join. |
| Text.SplitAtSeparator | image_gen_page/pages/cover.py:86 | Splitting `a + sep + b` gives the pieces of `a` followed by the pieces of `b`. |
| Text.FirstSegmentIsPrefix | image_gen_page/pages/aichart.py:57 | `s.split(sep)[0]` is the longest separator-free prefix of `s`: it is followed by the separator or by the end. |
| Text.LastSegmentIsSuffix | image_gen_page/tool/common_tool.py:32 | `s.split(sep)[-1]` is a separator-free suffix of `s`, preceded by the separator or by the start. |
| Text.LastSegmentUnique | image_gen_page/tool/common_tool.py:32 | Any separator-free suffix preceded by the separator (or spanning `s`) is `s.split(sep)[-1]`. |
| Text.FindCI | image_gen_page/pages/cover.py:216 | The search returns the first case-insensitive occurrence at or after `from`, or None exactly when there is none. |
| Text.NatToStringValue | image_gen_page/pages/gpt4o.py:53 | The decimal text of `n` reads back as `n`. |
| Text.ParseIntToString | image_gen_page/pages/gpt4o.py:46-53 | `int(str(i)) == i` for every integer, negative ones included. |
| Text.ValueToString | image_gen_page/pages/gpt4o.py:46-53 | A canonical numeral (no leading zero) is reproduced by `str(int(s))`. |
| Base64.Encode | image_gen_page/tool/common_tool.py:30 | The encoded length is 4·⌈n/3⌉ (section 4 of RFC 4648). |
| Base64.DecodeEncode | image_gen_page/tool/common_tool.py:30 | Decoding the encoding of any byte sequence gives it back. |
| Base64.ShortTestVectors | image_gen_page/tool/common_tool.py:30 | "f", "fo" and "foo" encode to `Zg==`, `Zm8=` and `Zm9v` (section 10 of RFC 4648). |
| Base64.FoobarTestVector | image_gen_page/tool/common_tool.py:30 | "foobar" encodes to `Zm9vYmFy` (section 10 of RFC 4648). |
| Base64.DecodeGroup | image_gen_page/tool/common_tool.py:30 | A full 4-character group decodes to its 3 bytes, ahead of whatever follows. |
| CommonTool.MimeType | image_gen_page/tool/common_tool.py:32-36 | The result is `image/png` or `image/jpeg`, and `image/png` exactly when the lower-cased last `.`-piece is `png`. |
| CommonTool.ImageToBase64 | image_gen_page/tool/common_tool.py:27-39 | The URI starts with `data:<mime>;base64,`, has length prefix + 4·⌈n/3⌉, and its payload decodes to the file's bytes. |
| CommonTool.MimeTypeWithoutDot | image_gen_page/tool/common_tool.py:32-36 | A name without a dot is its own extension, so anything but `png` up to case is `image/jpeg`. |
| CommonTool.LastSegmentOfLower | image_gen_page/tool/common_tool.py:32 | Lower-casing commutes with taking the last `.`-piece. |
| CommonTool.MimeTypeIgnoresCase | image_gen_page/tool/common_tool.py:32 | A name and its lower-cased form get the same MIME type. |
| CommonTool.UpperCasePng | image_gen_page/tool/common_tool.py:32-34 | `X.PNG` is `image/png`. |
| Upload.StoredNames | image_gen_page/pages/geminiImage.py:31-35 | Each file is stored under `digest(content) + "." + last .-piece of its name`, one name per file, in order. |
| Upload.LastStored | image_gen_page/pages/geminiImage.py:31-39 | After the loop `upload_img` is the last name stored, or unchanged when there was none. |
| Upload.HandleUpload | image_gen_page/pages/geminiImage.py:24-41 | No files: the size hint is shown and `upload_img` is unchanged. Otherwise the message is cleared and `upload_img` is the last file's name. `uploading` ends False either way. The names written are the stored names of the files, in upload order. |
| Upload.UploadName | image_gen_page/pages/geminiImage.py:33-35 | The stored name starts with the digest and a dot, and its last `.`-piece is the original extension whatever the digest holds. |
| Upload.UploadNameSplits | image_gen_page/pages/geminiImage.py:33-35 | With a dot-free digest, a stored name splits on `.` into exactly the digest and the original extension. |
| Upload.UploadNameKeepsMimeType | image_gen_page/pages/kontext.py:34-36 | The stored name announces the same MIME type as the original name, for any digest. |
| Responses.ItemUrls | image_gen_page/pages/jimeng.py:67 | Ok exactly when every item has a `url`. The result has the items' length and each URL is its item's, in order. KeyError otherwise. |
| Responses.DataUrls | image_gen_page/pages/gpt4o.py:64 | Ok exactly when `data` is present and every item has a `url`. Then the k-th URL is the k-th item's `url`. |
| Responses.TwoUrls | image_gen_page/pages/gpt4o.py:64 | A two-item reply gives its two URLs in order. |
| SizeOption.Dimensions | image_gen_page/pages/cover.py:86-88 | Ok means at least two `x`-fields, with width and height the integers of the first two. Ok exactly when the first field parses, a second exists and it parses. A bad first field is ValueError even with no second field. A missing second field is IndexError, and a bad second field is ValueError. |
| SizeOption.WxH | image_gen_page/pages/gpt4o.py:45-53 | The `WxH` text exists exactly when width and height parse. |
| SizeOption.Inner | image_gen_page/pages/jimeng.py:46 | `s[1:-1]`: the text between the first and last characters, or empty below two characters. |
| SizeOption.Ratio | image_gen_page/pages/jimeng.py:45-46 | Ok exactly when there are at least three `x`-fields, IndexError otherwise. |
| SizeOption.SplitRender | image_gen_page/pages/cover.py:86 | An option splits on `x` into its width, its height and the pieces of `(RATIO)`. |
| SizeOption.DimensionsOfRender | image_gen_page/pages/cover.py:86-88 | Any option with digit fields gives back its width and height numbers. |
| SizeOption.WxHOfRender | image_gen_page/pages/gpt4o.py:45-53 | For canonical fields, the size sent is the option text with its `x(RATIO)` tail cut off. |
| SizeOption.RatioOfRender | image_gen_page/pages/jimeng.py:45-46 | The ratio sent is exactly the text between the parentheses. |
| SizeOption.OptionsWellFormed | image_gen_page/pages/jimeng.py:17-26 | Every option of the three tables has canonical width and height and an `x`-free ratio. |
| SizeOption.CoverDimensions | image_gen_page/pages/cover.py:41-49 | For every cover option, the parsed width and height are its two leading numbers. |
| SizeOption.Gpt4oSizes | image_gen_page/pages/gpt4o.py:20-25 | For every gpt4o option, the size sent is `WIDTHxHEIGHT` of that option. |
| SizeOption.JimengRatios | image_gen_page/pages/jimeng.py:17-26 | For every jimeng option, the ratio sent is the text inside its parentheses. |
| SizeOption.CoverOptionTexts | image_gen_page/pages/cover.py:41-49 | The cover table is exactly the seven literal option strings, in order. |
| SizeOption.Gpt4oOptionTexts | image_gen_page/pages/gpt4o.py:21-25 | The gpt4o table is exactly the three literal option strings, in order. |
| SizeOption.JimengOptionTexts | image_gen_page/pages/jimeng.py:17-26 | The jimeng table is exactly the eight literal option strings, in order. |
| SizeOption.DefaultsAreOptions | image_gen_page/pages/cover.py:40-49 | Each page's default size is one of its options. |
| SizeOption.DefaultTexts | image_gen_page/pages/jimeng.py:16 | The defaults are `1024x576x(16:9)`, `1024x1024x(1:1)` and `2048x2048x(1:1)`. |
| HtmlExtract.TailFrom | image_gen_page/pages/cover.py:222-223 | Finds the least `<html…>…</html>` whose `<html` is at or after `from`. None means every such block starts before `from`. |
| HtmlExtract.DoctypeStage | image_gen_page/pages/cover.py:215-216 | The result is a DOCTYPE match below every other one, and None exactly when there is none. |
| HtmlExtract.FirstDoctypeSuffices | image_gen_page/pages/cover.py:215-216 | Every DOCTYPE match starts at or after the first DOCTYPE, so only the first needs trying. |
| HtmlExtract.BareStage | image_gen_page/pages/cover.py:222-223 | The result is a bare match below every other one, and None exactly when there is none. |
| HtmlExtract.ExtractMatch | image_gen_page/pages/cover.py:213-228 | The match returned is a DOCTYPE match or a bare match. |
| HtmlExtract.ExtractFirstHtmlCodeBlock | image_gen_page/pages/cover.py:213-228 | A result exactly when the match exists. It is the contiguous substring from the match start through the end of the matched `</html>`, which it ends with up to case. |
| HtmlExtract.CoveredShape | image_gen_page/pages/cover.py:219 | The text a match covers sits in the input at its start and ends with its `</html>`. |
| HtmlExtract.NoneIffNoBareMatch | image_gen_page/pages/cover.py:222-228 | None exactly when there is no `<html`, later `>`, later `</html>`. |
| HtmlExtract.DoctypePreferred | image_gen_page/pages/cover.py:215-219 | If the DOCTYPE pattern matches anywhere, the result starts with `<!DOCTYPE html>` up to case, even after an earlier bare block. |
| HtmlExtract.CoveredStartsWithDoctype | image_gen_page/pages/cover.py:215-219 | The text a DOCTYPE match covers starts with the DOCTYPE. |
| HtmlExtract.BareFallback | image_gen_page/pages/cover.py:222-226 | Without a DOCTYPE match the bare stage decides, and its block starts at the leftmost bare match. |
| HtmlExtract.EmbeddedDocument | image_gen_page/pages/cover.py:213-219 | A DOCTYPE document inside prose is returned exactly, when the prose before it has no `<` and its body no `</html>`. |
| HtmlExtract.NoBracketClosesOnce | image_gen_page/pages/cover.py:215 | A body without `<` cannot close the document early. |
| HtmlExtract.ExampleDocument | image_gen_page/pages/cover.py:215-219 | `<!DOCTYPE html><html><body>X</body></html>` inside prose is returned exactly. |
| Cover.ModelList | image_gen_page/pages/cover.py:16-18 | Empty for an empty `COVER_MODEL`. Otherwise non-empty, comma-free pieces that join back to the variable. |
| Cover.CountAt | image_gen_page/pages/cover.py:19-21 | One round's count: 1 past the end of the count list, else the field's integer, ValueError when it is not one. CountMap and CountOfModel state what the loop builds from it. |
| Cover.CountMap | image_gen_page/pages/cover.py:20-22 | Ok exactly when every count parses. The keys are exactly the models, and each name gets the count of its last occurrence. |
| Cover.Init | image_gen_page/pages/cover.py:14-26 | Setup succeeds exactly when the count for every model parses, and otherwise raises ValueError. `model_options` is the model list and `model` its first entry (or `""`). Every option has a count, and the view starts empty. |
| Cover.OfferedModelsHaveCounts | image_gen_page/pages/cover.py:120-122 | A model that passed the allow-list has a count, so the dictionary lookup cannot raise. |
| Cover.CountOfModel | image_gen_page/pages/cover.py:19-22 | The count of the model at index i is the i-th count field, or 1 past the end, from its last repeat. |
| Cover.UnsetConfig | image_gen_page/pages/cover.py:16-26 | With both variables unset there are no options, no model and no counts. |
| Cover.Contribution | image_gen_page/pages/cover.py:128-139 | A raised request gives the variant-failed alert, and a failed screenshot the screenshot-failed alert with its reason. Otherwise the result is a `data:image/png;base64,` URL whose payload decodes to the screenshot. |
| Cover.Step | image_gen_page/pages/cover.py:128-139 | One result puts exactly one entry in front of the URL list or of the alert list, and leaves the other list as it was. |
| Cover.StepAppend | image_gen_page/pages/cover.py:127-139 | A step commutes with appending what later results contribute. |
| Cover.Aggregate | image_gen_page/pages/cover.py:127-139 | Every result gives one URL or one alert, and every URL is a PNG data URI. |
| Cover.AggregateAppend | image_gen_page/pages/cover.py:127-139 | Aggregating two batches in turn is aggregating them together, so request order is kept. |
| Cover.AggregateSingle | image_gen_page/pages/cover.py:128-139 | One result contributes exactly its URL or exactly its alert. |
| Cover.ThreeVariants | image_gen_page/pages/cover.py:127-139 | Shot, raised, shot: two URLs in request order and one alert. |
| Cover.ScreenshotRequests | image_gen_page/pages/cover.py:132-135 | Only screenshot requests, at most one per result. When every request answered, the k-th screenshots the HTML extracted from the k-th answer. When every request raised, none is made. |
| Cover.ScreenshotAppend | image_gen_page/pages/cover.py:124-135 | The screenshots of two batches are those of the first followed by those of the second, so request order is kept. |
| Cover.ScreenshotSingle | image_gen_page/pages/cover.py:132-135 | An answer is screenshot exactly once, from the HTML extracted from it. A raised request is not screenshot. |
| Cover.RequestCount | image_gen_page/pages/cover.py:124 | `range(count)` has `count` elements, none when `count` is negative. GetImageFansOut states that this many chat requests go out. |
| Cover.GetImage | image_gen_page/pages/cover.py:76-148 | An empty prompt alerts and changes nothing. A bad size or an unknown model alerts before any request. Every other path ends with `processing` False and `complete` True. |
| Cover.GetImageFansOut | image_gen_page/pages/cover.py:122-142 | Exactly `count` chat requests for the chosen model come first, followed by exactly the screenshots of the answers. The images and alerts are the aggregate's, at most `count` images, and URLs plus alerts number `count`. |
| Cover.GetImagePromptSize | image_gen_page/pages/cover.py:86-95 | The prompt sent carries the width and height of the chosen option. |
| GeminiImage.FirstMessage | image_gen_page/pages/geminiImage.py:98 | `choices[0].message` when present. IndexError on an empty `choices`, KeyError when `choices` or the first message is missing. |
| GeminiImage.BlockAddress | image_gen_page/pages/geminiImage.py:104-109 | `data:` or `http` addresses are kept verbatim, others become `data:<type>;base64,<url>`. KeyError without `image_url`. |
| GeminiImage.ContentImages | image_gen_page/pages/geminiImage.py:103-109 | Ok exactly when every image block has an `image_url`. At most one address per block. |
| GeminiImage.NormalizeChat | image_gen_page/pages/geminiImage.py:97-110 | With a non-empty `images` the result is Ok exactly when the first image has a URL, and is then exactly that URL. An empty `images` is IndexError. Without `images`, the result is the addresses of the `content` blocks. |
| GeminiImage.ImagesIgnoreContent | image_gen_page/pages/geminiImage.py:98-100 | When `images` is present, `content` does not matter. |
| GeminiImage.ContentImagesAppend | image_gen_page/pages/geminiImage.py:103-109 | The content loop is a concatenation over blocks, so block order is kept. |
| GeminiImage.ContentImagesSingle | image_gen_page/pages/geminiImage.py:104-109 | A single block contributes nothing, a KeyError, or its one address. |
| GeminiImage.PngBlock | image_gen_page/pages/geminiImage.py:108-109 | A bare `abc123` PNG block becomes `data:image/png;base64,abc123`. |
| GeminiImage.Answer | image_gen_page/pages/geminiImage.py:94-113 | A non-200 status gives that failure. Success exactly when the reply decodes, has a first message, and normalises. |
| GeminiImage.GetImage | image_gen_page/pages/geminiImage.py:47-119 | Prompt first, then the upload, then nothing sent. `image_urls` is cleared before the one request. A good answer shows exactly its images with no alert; a failed one leaves the list empty with the generation-failed alert. |
| GeminiImage.GetImageShowsReply | image_gen_page/pages/geminiImage.py:94-110 | For any reply with at least one choice whose first message normalises, exactly its images are shown, with no alert and one request. |
| Kontext.Verdict | image_gen_page/pages/kontext.py:114-116 | A ready reply gives its first image's `url`, KeyError without one. An exception is passed on. |
| Kontext.Tick | image_gen_page/pages/kontext.py:102-119 | Past 60 the poller times out before asking. Otherwise one request is made, and it keeps waiting exactly on a pending reply, at least 2 units later. |
| Kontext.Poll | image_gen_page/pages/kontext.py:96-119 | From clock 0 the poller ends. The timeout is checked before every request, and every reply but the last was pending. The outcome is the last reply's verdict, or a timeout past 60 after pending replies only. |
| Kontext.RunPoll | image_gen_page/pages/kontext.py:102-119 | The loop always ends, and the number of requests never shrinks. |
| Kontext.RunFrom | image_gen_page/pages/kontext.py:96-119 | The timeout is checked before every request, all replies but the last are pending, and the outcome is the last verdict or a timeout. |
| Kontext.RunFromChecks | image_gen_page/pages/kontext.py:102-105 | Every request was preceded by a passed timeout check, and every reply but the last was pending. |
| Kontext.RunFromOutcome | image_gen_page/pages/kontext.py:104-119 | It ends with the verdict of a non-pending reply, or with a timeout past 60 after pending replies only. |
| Kontext.StepWaits | image_gen_page/pages/kontext.py:115-119 | A pending reply in time leads to the next request after the sleep. |
| Kontext.StepEnds | image_gen_page/pages/kontext.py:114-116 | A non-pending reply in time ends the polling with its verdict. |
| Kontext.StepTimesOut | image_gen_page/pages/kontext.py:104-105 | Past the limit the poller stops without asking. |
| Kontext.PollOutcome | image_gen_page/pages/kontext.py:96-119 | A success is the first image of the first non-pending reply. A timeout comes after pending replies only, with no request after it. |
| Kontext.InstantCheckTime | image_gen_page/pages/kontext.py:99 | With instant requests the clock at the k-th check is 2k. |
| Kontext.InstantPolling | image_gen_page/pages/kontext.py:98-119 | With instant requests at most 31 status requests are made. If none is ready the poller times out after exactly 31, at time 62. |
| Kontext.GetImage | image_gen_page/pages/kontext.py:48-94 | Prompt first, then the upload, with nothing sent. The submit carries the translated prompt and the data URI. A failed translation or file read, or a submit that is not a 200 reply with a `response_url`, leaves `image_urls` as it was with one alert naming the cause (`status-text` for a non-200, KeyError for a missing `response_url`), and sends nothing after the submit. An accepted submit is followed by one status request per poll turn. Success shows one image. |
| Kontext.GetImagePolls | image_gen_page/pages/kontext.py:76-87 | For any submit response text: one status request per poll turn to the response URL. The polled image alone is shown, or the previous images stay with the failure alert. |
| Jimeng.Answer | image_gen_page/pages/jimeng.py:58-67 | A status from 400 up is a client error. Success exactly when the body decodes and every item has a `url`. |
| Jimeng.GetImage | image_gen_page/pages/jimeng.py:35-73 | An empty prompt changes nothing and sends nothing. `image_urls` is cleared first. A bad size is IndexError before any request. The payload is model (default `jimeng`), prompt, ratio and `2k`. A good answer shows its URLs with no alert; any failure, an exception included, leaves the list empty with its one alert. |
| Jimeng.GetImageOption | image_gen_page/pages/jimeng.py:45-67 | For every option the payload carries its ratio, and a good reply's URLs are shown in order. |
| Jimeng.ErrorStatusClears | image_gen_page/pages/jimeng.py:62-69 | An error status leaves no images and one alert. |
| Gpt4o.Answer | image_gen_page/pages/gpt4o.py:60-67 | A non-200 status gives a status failure. Success exactly when the body decodes and every item has a `url`. |
| Gpt4o.GetImage | image_gen_page/pages/gpt4o.py:33-73 | An empty prompt changes nothing. The payload is model (default `gpt-4o-image`), prompt, `WxH` and `n = 1`. Success shows the reply's URLs. A bad size, a non-200 reply or an exception leaves the old images with the alert naming it. |
| Gpt4o.GetImageOption | image_gen_page/pages/gpt4o.py:45-64 | For every option the payload asks for its leading `WxH`, and a good reply's URLs are shown in order. |
| Gpt4o.FailureKeepsImages | image_gen_page/pages/gpt4o.py:65-67 | When the size parses, a non-200 reply leaves the images in place and alerts with the status and body. |
| Aichart.ChartLabel | image_gen_page/pages/aichart.py:57 | The label is the longest `-`-free prefix of the chart type. |
| Aichart.ChartLabelEmpty | image_gen_page/pages/aichart.py:57 | The label is empty exactly when the chart type is empty or starts with `-`. |
| Aichart.OptionLabelsNonEmpty | image_gen_page/pages/aichart.py:26-43 | Every offered chart type has a non-empty label. |
| Aichart.OutputTexts | image_gen_page/pages/aichart.py:76-77 | The k-th URL is the k-th output's `text`. If every output has one, all are taken. Otherwise the loop stops with KeyError exactly at the first output without `text`. |
| Aichart.ToolUrls | image_gen_page/pages/aichart.py:74-77 | An empty `toolOutput` contributes nothing, and a missing key or a parse failure stops the loop. A parsed output list contributes its texts. |
| Aichart.CollectUrls | image_gen_page/pages/aichart.py:73-77 | The loop completes exactly when every tool does, and then holds the URLs of every tool in tool order. |
| Aichart.CollectStopsAtFirstFailure | image_gen_page/pages/aichart.py:73-77 | A failing loop stops at the first failing tool. It keeps the URLs of every earlier tool plus what that tool appended, and reports that tool's failure. |
| Aichart.CollectAppend | image_gen_page/pages/aichart.py:73-77 | The tool loop over a concatenation is one loop after the other: tool order is kept, and a failure keeps what came before it. |
| Aichart.CollectSingle | image_gen_page/pages/aichart.py:73-77 | One tool alone contributes its own URLs. |
| Aichart.EmptyOutputSkipped | image_gen_page/pages/aichart.py:74 | Inserting a tool with an empty `toolOutput` anywhere, even after a failing tool, changes nothing. |
| Aichart.GetImage | image_gen_page/pages/aichart.py:48-86 | `image_urls` is cleared before the prompt check. An empty prompt sends nothing and shows the prompt-required alert. Non-200 is a TypeError alert. A raised request, an undecodable body or a missing `usedTools` leaves the list empty with its one alert. A 200 reply with a decodable body and `usedTools` shows the collected URLs, with an alert exactly when collection stopped (its exception) or found nothing (the reply text). |

## Left out

- The Reflex UI is not modelled: `index`, `image_modal`, `download_image`, the `set_*` setters and `async with self` state locking. This is layout and framework plumbing.
- Network calls become parameters: the chat, screenshot, image-generation, queue and Flowise requests enter as their outcomes (the decoded body or the exception text).
- Base URLs, API keys and headers are not modelled, so a missing environment variable (`None + str`) is not modelled either.
- Cover.GetImage: the chat answer extraction inside `fetch_image` (`data['choices'][0]['message']['content']`) is folded into the fetch outcome parameter.
- JSON decoding is taken as given: replies enter as datatypes, with a missing key as an absent `Option`. A value of the wrong JSON type (such as a non-list `content`) is not modelled.
- `translate` (GoogleTranslator), file reads and writes, `rx.get_upload_dir` and MD5 are parameters. The digest is an uninterpreted function.
- Kontext.RunPoll: the event-loop clock is a float and `asyncio.sleep(2)` may overshoot. Time here is whole units, with any overshoot folded into `latency`.
- Cover.Contribution: the screenshot outcome is a function of the extracted HTML alone. Two variants with identical HTML get the same outcome, whereas the code makes one screenshot request per variant, and those could fail differently.
- Cover.Init: `cover_counts_dict` is a class attribute shared by every state instance. The model gives each state its own map.
- Aichart.GetImage: the empty-prompt alert relies on Reflex showing the value a synchronous generator handler returns. Reflex is not part of this model.
- Text.ParseInt: accepts only an optional sign and ASCII digits. Python's `int()` also strips surrounding whitespace and accepts underscores between digits and non-ASCII decimal digits.
- Text.Lower: folds ASCII letters only. The only strings it meets are file extensions and the two HTML patterns, and for those no non-ASCII character folds onto `p`, `n`, `g` or a pattern letter, except that a non-ASCII extension is not lower-cased.
- `print` calls and the content of the prompt templates are not modelled. The cover prompt is represented by its parts (width, height, topic and style).
- Environment loading and routing in image_gen_page/image_gen_page.py are not modelled.

=== FILE: aichart.dfy ===
/** The aichart page: `get_image` asks a Flowise chat flow to draw a chart
    of the chosen type and shows the `text` of every output of every tool
    the flow used. The HTTP exchange, with the JSON decoding of each tool's
    `toolOutput` string, is a parameter.

    `get_image` here is a plain generator, not a background task. On an
    empty prompt it `return`s the alert instead of yielding it; Reflex shows
    the value a generator handler returns like the ones it yields, so the
    alert appears, after `image_urls` was already cleared. */
module Aichart {
  import opened Results
  import opened Text
  import opened Page

  /** `chart_type_options`; the default `chart_type` is the first. */
  const ChartTypeOptions: seq<string> := [
    "条形图-展示不同类别之间的数值比较",
    "柱状图-适合比较分类数据",
    "饼图-展示部分与整体的比例",
    "直方图-展示特定范围内数据点的频率",
    "面积图-展示连续自变量下的数据趋势",
    "鱼骨图-展示问题的原因或结果",
    "流程图-展示过程或系统的步骤和决策点",
    "折线图-展示随时间变化的趋势",
    "思维导图-以层次结构展示信息",
    "网络图-展示实体之间的关系",
    "雷达图-展示多维数据",
    "散点图-展示两个变量之间的关系",
    "树形图-展示层次数据",
    "词云图-通过文本大小变化展示词频或权重",
    "双轴图-结合两种不同图表类型"
  ]

  /** `chart_type.split('-')[0]`, the chart name put into the question. */
  function ChartLabel(chartType: string): (name: string)
    ensures |name| <= |chartType| && name == chartType[..|name|] && '-' !in name
    ensures |name| == |chartType| || chartType[|name|] == '-'
  {
    FirstSegmentIsPrefix(chartType, '-');
    FirstSegment(chartType, '-')
  }

  /** The label is empty exactly when the chart type starts with `-` or is
      empty. */
  lemma ChartLabelEmpty(chartType: string)
    ensures ChartLabel(chartType) == "" <==> |chartType| == 0 || chartType[0] == '-'
  {
  }

  /** Every chart type offered has a non-empty label. */
  lemma OptionLabelsNonEmpty()
    ensures forall i :: 0 <= i < |ChartTypeOptions| ==> ChartLabel(ChartTypeOptions[i]) != ""
  {
    forall i | 0 <= i < |ChartTypeOptions|
      ensures ChartLabel(ChartTypeOptions[i]) != ""
    {
      ChartLabelEmpty(ChartTypeOptions[i]);
    }
  }

  /** One element of a parsed `toolOutput` array; None when it has no `text`. */
  datatype ToolText = ToolText(text: Option<string>)

  /** One entry of `usedTools`: its `toolOutput` string (None when the key
      is missing) and the outcome of `json.loads` on it. */
  datatype UsedTool = UsedTool(toolOutput: Option<string>, parsed: Result<seq<ToolText>, string>)

  /** The decoded Flowise reply: its optional `usedTools` list. */
  datatype FlowReply = FlowReply(usedTools: Option<seq<UsedTool>>)

  /** The URLs appended and, when the loop stopped early, why. */
  datatype Collected = Collected(urls: seq<string>, stop: Option<Failure>)

  /** The inner loop over one tool's outputs: the texts appended before
      the first output without `text`. */
  function OutputTexts(outputs: seq<ToolText>): (c: Collected)
    ensures |c.urls| <= |outputs|
    ensures c.stop.None? <==> forall k :: 0 <= k < |outputs| ==> outputs[k].text.Some?
    ensures c.stop.None? ==> |c.urls| == |outputs|
    ensures c.stop.Some? ==> |c.urls| < |outputs| && outputs[|c.urls|].text.None?
    ensures c.stop.Some? ==> c.stop.value == Local(KeyError)
    ensures forall k :: 0 <= k < |c.urls| ==> outputs[k].text == Some(c.urls[k])
    decreases |outputs|
  {
    if |outputs| == 0 then Collected([], None)
    else if outputs[0].text.None? then Collected([], Some(Local(KeyError)))
    else
      var rest := OutputTexts(outputs[1..]);
      Collected([outputs[0].text.value] + rest.urls, rest.stop)
  }

  /** What one tool contributes: nothing for an empty `toolOutput`, else
      the texts of its parsed outputs. */
  function ToolUrls(tool: UsedTool): (c: Collected)
    ensures tool.toolOutput == Some("") ==> c == Collected([], None)
    ensures tool.toolOutput.None? ==> c == Collected([], Some(Local(KeyError)))
    ensures tool.toolOutput.Some? && tool.toolOutput.value != "" && tool.parsed.Err? ==>
      c == Collected([], Some(Raised(tool.parsed.error)))
    ensures tool.toolOutput.Some? && tool.toolOutput.value != "" && tool.parsed.Ok? ==>
      c == OutputTexts(tool.parsed.value)
  {
    match tool.toolOutput
    case None => Collected([], Some(Local(KeyError)))
    case Some(output) =>
      if output == "" then Collected([], None)
      else
        match tool.parsed
        case Err(reason) => Collected([], Some(Raised(reason)))
        case Ok(outputs) => OutputTexts(outputs)
  }

  /** Every URL of every tool, in tool order, as if none failed. */
  function AllToolUrls(tools: seq<UsedTool>): seq<string>
    decreases |tools|
  {
    if |tools| == 0 then [] else ToolUrls(tools[0]).urls + AllToolUrls(tools[1..])
  }

  /** The loop over `usedTools`, appending to `image_urls` as it goes: the
      URLs of every tool in order, up to the first failure. */
  function CollectUrls(tools: seq<UsedTool>): (c: Collected)
    ensures c.stop.None? <==> forall k :: 0 <= k < |tools| ==> ToolUrls(tools[k]).stop.None?
    ensures c.stop.None? ==> c.urls == AllToolUrls(tools)
    decreases |tools|
  {
    if |tools| == 0 then Collected([], None)
    else
      var first := ToolUrls(tools[0]);
      if first.stop.Some? then first
      else
        var rest := CollectUrls(tools[1..]);
        Collected(first.urls + rest.urls, rest.stop)
  }

  /** Tool `j` is the first to fail, its failure is `c`'s, and `c` holds
      the URLs of every tool before it followed by what tool `j` appended
      before failing. */
  predicate FailsFirstAt(tools: seq<UsedTool>, j: nat, c: Collected)
    requires j < |tools|
  {
    && (forall k :: 0 <= k < j ==> ToolUrls(tools[k]).stop.None?)
    && ToolUrls(tools[j]).stop == c.stop
    && c.urls == AllToolUrls(tools[..j]) + ToolUrls(tools[j]).urls
  }

  /** A failing loop stops at the first tool that fails. */
  lemma {:induction false} CollectStopsAtFirstFailure(tools: seq<UsedTool>)
    ensures CollectUrls(tools).stop.Some? ==>
      exists j :: 0 <= j < |tools| && FailsFirstAt(tools, j, CollectUrls(tools))
    decreases |tools|
  {
    var c := CollectUrls(tools);
    if |tools| > 0 && c.stop.Some? {
      if ToolUrls(tools[0]).stop.Some? {
        assert tools[..0] == [];
        assert FailsFirstAt(tools, 0, c);
      } else {
        var rest := tools[1..];
        CollectStopsAtFirstFailure(rest);
        var j :| 0 <= j < |rest| && FailsFirstAt(rest, j, CollectUrls(rest));
        FailsFirstAtCons(tools, j, CollectUrls(rest));
      }
    }
  }

  /** A tool that succeeds, put in front, moves the first failure one on. */
  lemma FailsFirstAtCons(tools: seq<UsedTool>, j: nat, c: Collected)
    requires j + 1 < |tools| && ToolUrls(tools[0]).stop.None?
    requires FailsFirstAt(tools[1..], j, c)
    ensures FailsFirstAt(tools, j + 1, Collected(ToolUrls(tools[0]).urls + c.urls, c.stop))
  {
    var rest := tools[1..];
    var first := ToolUrls(tools[0]).urls;
    var prefix := tools[..j + 1];
    assert prefix[0] == tools[0] && prefix[1..] == rest[..j];
    assert AllToolUrls(prefix) == first + AllToolUrls(rest[..j]);
    assert tools[j + 1] == rest[j];
    assert first + c.urls == AllToolUrls(prefix) + ToolUrls(tools[j + 1]).urls;
    forall k | 0 <= k < j + 1
      ensures ToolUrls(tools[k]).stop.None?
    {
      if k > 0 {
        assert tools[k] == rest[k - 1];
      }
    }
  }

  /** The tool loop runs over a concatenation as one loop after the other:
      tool order is kept, and a failure ends the loop with what was
      appended before it. */
  lemma {:induction false} CollectAppend(xs: seq<UsedTool>, ys: seq<UsedTool>)
    ensures CollectUrls(xs + ys) ==
      if CollectUrls(xs).stop.Some? then CollectUrls(xs)
      else Collected(CollectUrls(xs).urls + CollectUrls(ys).urls, CollectUrls(ys).stop)
    decreases |xs|
  {
    if |xs| == 0 {
      assert xs + ys == ys;
      assert [] + CollectUrls(ys).urls == CollectUrls(ys).urls;
    } else {
      assert (xs + ys)[1..] == xs[1..] + ys;
      assert (xs + ys)[0] == xs[0];
      CollectAppend(xs[1..], ys);
      var first := ToolUrls(xs[0]);
      if first.stop.None? {
        var a := CollectUrls(xs[1..]).urls;
        var b := CollectUrls(ys).urls;
        assert first.urls + (a + b) == (first.urls + a) + b;
      }
    }
  }

  /** One tool alone contributes its own URLs. */
  lemma CollectSingle(tool: UsedTool)
    ensures CollectUrls([tool]) == ToolUrls(tool)
  {
    var s := [tool];
    assert s[1..] == [];
    assert ToolUrls(tool).urls + [] == ToolUrls(tool).urls;
  }

  /** Tools with an empty `toolOutput` change nothing. */
  lemma EmptyOutputSkipped(xs: seq<UsedTool>, parsed: Result<seq<ToolText>, string>, ys: seq<UsedTool>)
    ensures CollectUrls(xs + [UsedTool(Some(""), parsed)] + ys) == CollectUrls(xs + ys)
  {
    var skip := UsedTool(Some(""), parsed);
    CollectSingle(skip);
    CollectAppend(xs, [skip]);
    CollectAppend(xs + [skip], ys);
    CollectAppend(xs, ys);
    assert CollectUrls(xs).urls + [] == CollectUrls(xs).urls;
  }

  // ---------------------------------------------------------------------
  // get_image

  datatype AichartState = AichartState(prompt: string, chartType: string, view: View)

  /** The one request: the chart label and the prompt the question is
      built from. */
  datatype AichartRequest = AichartRequest(chartName: string, prompt: string)

  /** `get_image` */
  function GetImage(st: AichartState, reply: HttpReply<FlowReply>): (r: Run<AichartRequest>)
    ensures r.view.imageUrls == [] || (st.prompt != "" && reply.Reply? && reply.status == 200)
    ensures st.prompt == "" ==> r == Run(st.view.(imageUrls := []), [PromptRequired], [])
    ensures st.prompt != "" ==>
      && r.sent == [AichartRequest(ChartLabel(st.chartType), st.prompt)]
      && !r.view.processing && r.view.complete
      && |r.alerts| <= 1
    ensures st.prompt != "" && reply.Reply? && reply.status != 200 ==>
      r.view.imageUrls == [] && r.alerts == [GenerationFailed(Local(TypeError))]
    ensures (st.prompt != "" && reply.Reply? && reply.status == 200 && reply.json.Ok?
             && reply.json.value.usedTools.Some?) ==>
      && r.view.imageUrls == CollectUrls(reply.json.value.usedTools.value).urls
      && (r.alerts == [] <==> CollectUrls(reply.json.value.usedTools.value).stop.None? && r.view.imageUrls != [])
    // a stopped collection keeps what it appended and alerts with the exception
    ensures (st.prompt != "" && reply.Reply? && reply.status == 200 && reply.json.Ok?
             && reply.json.value.usedTools.Some? && CollectUrls(reply.json.value.usedTools.value).stop.Some?) ==>
      r.alerts == [GenerationFailed(CollectUrls(reply.json.value.usedTools.value).stop.value)]
    // a complete collection that found nothing alerts with the reply text
    ensures (st.prompt != "" && reply.Reply? && reply.status == 200 && reply.json.Ok?
             && reply.json.value.usedTools.Some? && CollectUrls(reply.json.value.usedTools.value) == Collected([], None)) ==>
      r.alerts == [NothingGenerated(reply.text)]
    // the request raised, the body is not JSON, or it has no `usedTools`
    ensures st.prompt != "" && reply.NoReply? ==>
      r.view.imageUrls == [] && r.alerts == [GenerationFailed(Raised(reply.reason))]
    ensures st.prompt != "" && reply.Reply? && reply.status == 200 && reply.json.Err? ==>
      r.view.imageUrls == [] && r.alerts == [GenerationFailed(Raised(reply.json.error))]
    ensures st.prompt != "" && reply.Reply? && reply.status == 200 && reply.json.Ok? && reply.json.value.usedTools.None? ==>
      r.view.imageUrls == [] && r.alerts == [GenerationFailed(Local(KeyError))]
  {
    if st.prompt == "" then Run(st.view.(imageUrls := []), [PromptRequired], [])
    else
      var view := Begin(st.view.(imageUrls := []));
      var request := AichartRequest(ChartLabel(st.chartType), st.prompt);
      var (urls, alerts) :=
        match reply
        case NoReply(reason) => ([], [GenerationFailed(Raised(reason))])
        case Reply(status, json, text) =>
          if status != 200 then ([], [GenerationFailed(Local(TypeError))])
          else if json.Err? then ([], [GenerationFailed(Raised(json.error))])
          else if json.value.usedTools.None? then ([], [GenerationFailed(Local(KeyError))])
          else
            var c := CollectUrls(json.value.usedTools.value);
            if c.stop.Some? then (c.urls, [GenerationFailed(c.stop.value)])
            else if c.urls == [] then ([], [NothingGenerated(text)])
            else (c.urls, []);
      Run(Finish(view).(imageUrls := urls), alerts, [request])
  }
}

=== FILE: base64.dfy ===
/** Base 64 encoding with the standard alphabet and `=` padding, as in
    section 4 of RFC 4648 (Python's `base64.b64encode`), together with its
    decoder, which the model uses only to state that encoding loses nothing. */
module Base64 {
  import opened Results

  type byte = x: int | 0 <= x < 256

  /** The value-to-character table (Table 1 of RFC 4648). */
  function Char(i: nat): char
    requires i < 64
  {
    if i < 26 then ('A' as int + i) as char
    else if i < 52 then ('a' as int + (i - 26)) as char
    else if i < 62 then ('0' as int + (i - 52)) as char
    else if i == 62 then '+'
    else '/'
  }

  /** The inverse of the table; None for characters outside the alphabet. */
  function Index(c: char): (r: Option<nat>)
    ensures r.Some? ==> r.value < 64 && Char(r.value) == c
  {
    if 'A' <= c <= 'Z' then Some(c as int - 'A' as int)
    else if 'a' <= c <= 'z' then Some(c as int - 'a' as int + 26)
    else if '0' <= c <= '9' then Some(c as int - '0' as int + 52)
    else if c == '+' then Some(62)
    else if c == '/' then Some(63)
    else None
  }

  /** The table is one-to-one: every value comes back from its character. */
  lemma IndexChar(i: nat)
    requires i < 64
    ensures Index(Char(i)) == Some(i)
  {
  }

  const Pad: char := '='

  /** `b64encode(content)`: each group of three bytes becomes four
      characters; a final group of one or two bytes is padded with `=`. */
  function Encode(content: seq<byte>): (r: string)
    ensures |r| == 4 * ((|content| + 2) / 3)
    decreases |content|
  {
    if |content| == 0 then []
    else if |content| == 1 then
      [Char(content[0] / 4), Char((content[0] % 4) * 16), Pad, Pad]
    else if |content| == 2 then
      [Char(content[0] / 4), Char((content[0] % 4) * 16 + content[1] / 16),
       Char((content[1] % 16) * 4), Pad]
    else Group(content[0], content[1], content[2]) + Encode(content[3..])
  }

  /** The four characters of one full group of three bytes. */
  function Group(b0: byte, b1: byte, b2: byte): string
  {
    [Char(b0 / 4), Char((b0 % 4) * 16 + b1 / 16), Char((b1 % 16) * 4 + b2 / 64), Char(b2 % 64)]
  }

  /** Decoding of a padded base 64 text; None when it is malformed. */
  function Decode(text: string): Option<seq<byte>>
    decreases |text|
  {
    if |text| == 0 then Some([])
    else if |text| < 4 then None
    else
      var c0 :- Index(text[0]);
      var c1 :- Index(text[1]);
      var b0 := First(c0, c1);
      if |text| == 4 && text[2] == Pad && text[3] == Pad then Some([b0])
      else
        var c2 :- Index(text[2]);
        var b1 := Second(c1, c2);
        if |text| == 4 && text[3] == Pad then Some([b0, b1])
        else
          var c3 :- Index(text[3]);
          var b2 := Third(c2, c3);
          var rest :- Decode(text[4..]);
          Some([b0, b1, b2] + rest)
  }

  /** The first byte of a group: six bits of the first character and two
      of the second. */
  function First(c0: nat, c1: nat): byte
    requires c0 < 64 && c1 < 64
  {
    c0 * 4 + c1 / 16
  }

  /** The second byte: four bits of the second character, four of the third. */
  function Second(c1: nat, c2: nat): byte
    requires c1 < 64 && c2 < 64
  {
    (c1 % 16) * 16 + c2 / 4
  }

  /** The third byte: two bits of the third character, six of the fourth. */
  function Third(c2: nat, c3: nat): byte
    requires c2 < 64 && c3 < 64
  {
    (c2 % 4) * 64 + c3
  }

  /** The 6-bit groups of three bytes reassemble into the same bytes. */
  lemma GroupRoundTrip(b0: byte, b1: byte, b2: byte)
    ensures First(b0 / 4, (b0 % 4) * 16 + b1 / 16) == b0
    ensures Second((b0 % 4) * 16 + b1 / 16, (b1 % 16) * 4 + b2 / 64) == b1
    ensures Third((b1 % 16) * 4 + b2 / 64, b2 % 64) == b2
  {
  }

  /** A full group decodes back to its three bytes, ahead of whatever follows. */
  lemma DecodeGroup(b0: byte, b1: byte, b2: byte, rest: string)
    requires Decode(rest).Some?
    ensures Decode(Group(b0, b1, b2) + rest) == Some([b0, b1, b2] + Decode(rest).value)
  {
    var text := Group(b0, b1, b2) + rest;
    var c0, c1, c2, c3 := b0 / 4, (b0 % 4) * 16 + b1 / 16, (b1 % 16) * 4 + b2 / 64, b2 % 64;
    GroupRoundTrip(b0, b1, b2);
    IndexChar(c0);
    IndexChar(c1);
    IndexChar(c2);
    IndexChar(c3);
    assert text[0] == Char(c0) && text[1] == Char(c1) && text[2] == Char(c2) && text[3] == Char(c3);
    assert text[4..] == rest;
    assert text[3] != Pad;
  }

  /** A final single byte decodes back from its padded group. */
  lemma DecodeOne(b0: byte)
    ensures Decode(Encode([b0])) == Some([b0])
  {
    var c0, c1 := b0 / 4, (b0 % 4) * 16;
    GroupRoundTrip(b0, 0, 0);
    IndexChar(c0);
    IndexChar(c1);
    var text := Encode([b0]);
    assert text == [Char(c0), Char(c1), Pad, Pad];
  }

  /** A final pair of bytes decodes back from its padded group. */
  lemma DecodeTwo(b0: byte, b1: byte)
    ensures Decode(Encode([b0, b1])) == Some([b0, b1])
  {
    var c0, c1, c2 := b0 / 4, (b0 % 4) * 16 + b1 / 16, (b1 % 16) * 4;
    GroupRoundTrip(b0, b1, 0);
    IndexChar(c0);
    IndexChar(c1);
    IndexChar(c2);
    var text := Encode([b0, b1]);
    assert text == [Char(c0), Char(c1), Char(c2), Pad];
  }

  /** The short test vectors of section 10 of RFC 4648: "f", "fo" and "foo". */
  lemma ShortTestVectors()
    ensures Encode([102]) == "Zg=="
    ensures Encode([102, 111]) == "Zm8="
    ensures Encode([102, 111, 111]) == "Zm9v"
  {
    assert Encode([102, 111, 111]) == Group(102, 111, 111) + Encode([]);
  }

  /** The longest test vector of section 10 of RFC 4648: "foobar". */
  lemma FoobarTestVector()
    ensures Encode([102, 111, 111, 98, 97, 114]) == "Zm9vYmFy"
  {
    var content: seq<byte> := [102, 111, 111, 98, 97, 114];
    assert content[3..] == [98, 97, 114];
    assert Encode(content[3..]) == "YmFy" by {
      assert Encode([98, 97, 114]) == Group(98, 97, 114) + Encode([]);
    }
    assert Encode(content) == Group(102, 111, 111) + Encode(content[3..]);
  }

  /** Decoding undoes encoding, for every byte sequence. */
  lemma {:induction false} DecodeEncode(content: seq<byte>)
    ensures Decode(Encode(content)) == Some(content)
    decreases |content|
  {
    if |content| == 1 {
      DecodeOne(content[0]);
      assert [content[0]] == content;
    } else if |content| == 2 {
      DecodeTwo(content[0], content[1]);
      assert [content[0], content[1]] == content;
    } else if |content| >= 3 {
      var rest := content[3..];
      var group := Group(content[0], content[1], content[2]);
      assert Encode(content) == group + Encode(rest);
      assert Decode(group + Encode(rest)) == Some([content[0], content[1], content[2]] + rest) by {
        DecodeEncode(rest);
        DecodeGroup(content[0], content[1], content[2], Encode(rest));
      }
      assert [content[0], content[1], content[2]] + rest == content;
    }
  }
}

=== FILE: common_tool.dfy ===
/** `image_to_base64` from the shared tool module: the MIME type chosen from
    the file name, and the data URI built from the file content. Reading the
    file from the upload directory is left to the caller, who passes in its
    bytes. */
module CommonTool {
  import opened Results
  import opened Text
  import Base64

  const PngMime := "image/png"
  const JpegMime := "image/jpeg"

  /** `"image/png"` when the lower-cased last `.`-piece of the name is
      `png`, `"image/jpeg"` for everything else. */
  function MimeType(filename: string): (mime: string)
    ensures mime == PngMime || mime == JpegMime
    ensures mime == PngMime <==> Lower(LastSegment(filename, '.')) == "png"
  {
    if Lower(LastSegment(filename, '.')) == "png" then PngMime else JpegMime
  }

  /** `f"data:{mime};base64,{encoded}"` */
  function DataUri(mime: string, encoded: string): string {
    "data:" + mime + ";base64," + encoded
  }

  /** The data URI for an uploaded image: it announces the MIME type of the
      name, and its payload is the RFC 4648 encoding of the content, which
      has 4 * ceil(n / 3) characters and decodes back to the content. */
  function ImageToBase64(uploadImg: string, content: seq<Base64.byte>): (uri: string)
    ensures var prefix := "data:" + MimeType(uploadImg) + ";base64,";
      && StartsWith(uri, prefix)
      && |uri| == |prefix| + 4 * ((|content| + 2) / 3)
      && Base64.Decode(uri[|prefix|..]) == Some(content)
  {
    var encoded := Base64.Encode(content);
    Base64.DecodeEncode(content);
    var uri := DataUri(MimeType(uploadImg), encoded);
    assert uri[|"data:" + MimeType(uploadImg) + ";base64,"|..] == encoded;
    uri
  }

  /** A name without any dot is its own extension. */
  lemma MimeTypeWithoutDot(filename: string)
    requires '.' !in filename
    ensures MimeType(filename) == (if Lower(filename) == "png" then PngMime else JpegMime)
  {
    SplitWithoutSeparator(filename, '.');
  }

  /** Lower-casing commutes with taking the last piece, because it maps
      dots, and only dots, to dots. */
  lemma LastSegmentOfLower(s: string)
    ensures LastSegment(Lower(s), '.') == Lower(LastSegment(s, '.'))
  {
    var r := LastSegment(s, '.');
    LastSegmentIsSuffix(s, '.');
    var low := Lower(s);
    var c := Lower(r);
    assert forall k :: 0 <= k < |c| ==> c[k] == low[|low| - |c| + k];
    assert c == low[|low| - |c|..];
    assert forall k :: 0 <= k < |c| ==> c[k] != '.';
    if |c| < |low| {
      assert low[|low| - |c| - 1] == LowerAscii(s[|s| - |r| - 1]);
    }
    LastSegmentUnique(low, '.', c);
  }

  /** The extension check ignores case: `X.PNG` and `x.png` get the same type. */
  lemma MimeTypeIgnoresCase(filename: string)
    ensures MimeType(Lower(filename)) == MimeType(filename)
  {
    LastSegmentOfLower(filename);
    var e := LastSegment(filename, '.');
    assert Lower(Lower(e)) == Lower(e);
  }

  /** `X.PNG` is a PNG. */
  lemma UpperCasePng()
    ensures MimeType("X.PNG") == PngMime
  {
    SplitAtSeparator("X", "PNG", '.');
    SplitWithoutSeparator("X", '.');
    SplitWithoutSeparator("PNG", '.');
    assert "X" + ['.'] + "PNG" == "X.PNG";
    assert LastSegment("X.PNG", '.') == "PNG";
    var lower := Lower("PNG");
    assert lower[0] == 'p' && lower[1] == 'n' && lower[2] == 'g';
    assert lower == "png";
  }
}

=== FILE: cover.dfy ===
/** The cover page: its configuration from `COVER_MODEL` and `COVER_COUNT`,
    and `get_image`, which asks the chosen chat model `count` times for an
    HTML cover design, takes a screenshot of the first HTML document of
    every answer, and shows the screenshots as PNG data URIs.

    The chat requests and the screenshot service are parameters: `fetch(i)`
    is the settled outcome of the i-th chat request (its message content, or
    the text of the exception it raised), and `screenshot(html)` the
    outcome of one screenshot call (the image bytes, or the exception
    text). */
module Cover {
  import opened Results
  import opened Text
  import opened Page
  import Base64
  import SizeOption
  import HtmlExtract

  /** The page state `get_image` reads and writes. */
  datatype CoverState = CoverState(
    prompt: string,
    size: string,
    style: string,
    model: string,
    modelOptions: seq<string>,
    counts: map<string, int>,
    view: View)

  /** The first entry of `style_options`, the default `style`. */
  const DefaultStyle := "现代简约风格，干净利落的线条和留白设计"

  // ---------------------------------------------------------------------
  // configuration

  /** `cover_model.split(',') if cover_model else []` */
  function ModelList(coverModel: string): (models: seq<string>)
    ensures coverModel == "" ==> models == []
    ensures coverModel != "" ==> |models| >= 1 && Join(models, ',') == coverModel
    ensures forall k :: 0 <= k < |models| ==> ',' !in models[k]
  {
    if coverModel == "" then []
    else
      JoinSplit(coverModel, ',');
      Split(coverModel, ',')
  }

  /** `int(cover_counts[index]) if index < len(cover_counts) else 1` */
  function CountAt(fields: seq<string>, index: nat): (r: Result<int, ErrorKind>)
    ensures index >= |fields| ==> r == Ok(1)
    ensures index < |fields| ==> (r.Ok? <==> ParseInt(fields[index]).Some?)
    ensures index < |fields| && r.Ok? ==> ParseInt(fields[index]) == Some(r.value)
    ensures r.Err? ==> r.error == ValueError
  {
    if index >= |fields| then Ok(1)
    else
      match ParseInt(fields[index])
      case None => Err(ValueError)
      case Some(c) => Ok(c)
  }

  /** The first `n` rounds of the loop filling `cover_counts_dict`: each
      model gets its count, and a later repeat of a name overwrites it. */
  function CountMap(models: seq<string>, fields: seq<string>, n: nat): (r: Result<map<string, int>, ErrorKind>)
    requires n <= |models|
    ensures r.Ok? <==> forall i :: 0 <= i < n ==> CountAt(fields, i).Ok?
    ensures r.Ok? ==> r.value.Keys == set i | 0 <= i < n :: models[i]
    ensures r.Ok? ==> forall i :: 0 <= i < n && LastOf(models, n, i) ==>
      r.value[models[i]] == CountAt(fields, i).value
    ensures r.Err? ==> r.error == ValueError
    decreases n
  {
    if n == 0 then Ok(map[])
    else
      match CountMap(models, fields, n - 1)
      case Err(e) => Err(e)
      case Ok(counts) =>
        match CountAt(fields, n - 1)
        case Err(e) => Err(e)
        case Ok(c) =>
          CountMapStep(models, n);
          Ok(counts[models[n - 1] := c])
  }

  /** How the names of the first `n` models grow with `n`. */
  lemma CountMapStep(models: seq<string>, n: nat)
    requires 0 < n <= |models|
    ensures (set i | 0 <= i < n :: models[i]) == (set i | 0 <= i < n - 1 :: models[i]) + {models[n - 1]}
    ensures forall i :: 0 <= i < n - 1 && LastOf(models, n, i) ==>
      LastOf(models, n - 1, i) && models[i] != models[n - 1]
  {
    var small := set i | 0 <= i < n - 1 :: models[i];
    var big := set i | 0 <= i < n :: models[i];
    forall m | m in big
      ensures m in small + {models[n - 1]}
    {
      var i :| 0 <= i < n && models[i] == m;
      if i < n - 1 {
        assert m in small;
      }
    }
    forall m | m in small
      ensures m in big
    {
      var i :| 0 <= i < n - 1 && models[i] == m;
      assert 0 <= i < n;
    }
    assert models[n - 1] in big;
  }

  /** Index `i` holds the last occurrence of its name among the first `n`. */
  predicate LastOf(models: seq<string>, n: nat, i: nat)
    requires i < n <= |models|
  {
    forall j :: i < j < n ==> models[j] != models[i]
  }

  /** `PageState.__init__`: the initial cover state, from the two
      environment variables (None when unset). A count that is not an
      integer raises ValueError while the state is built. */
  function Init(coverModel: Option<string>, coverCount: Option<string>): (r: Result<CoverState, ErrorKind>)
    ensures r.Ok? <==> CountMap(ModelList(coverModel.GetOr("")), Split(coverCount.GetOr("1"), ','),
                                |ModelList(coverModel.GetOr(""))|).Ok?
    ensures r.Err? ==> r.error == ValueError
    ensures r.Ok? ==> r.value.modelOptions == ModelList(coverModel.GetOr(""))
    ensures r.Ok? && |r.value.modelOptions| > 0 ==> r.value.model == r.value.modelOptions[0]
    ensures r.Ok? && |r.value.modelOptions| == 0 ==> r.value.model == ""
    ensures r.Ok? ==> r.value.counts.Keys == set m | m in r.value.modelOptions
    ensures r.Ok? ==> r.value.view == View([], false, false) && r.value.prompt == ""
    ensures r.Ok? ==> r.value.size == SizeOption.CoverDefaultSize
  {
    var models := ModelList(coverModel.GetOr(""));
    var fields := Split(coverCount.GetOr("1"), ',');
    var counts :- CountMap(models, fields, |models|);
    var model := if |models| > 0 then models[0] else "";
    assert (set i | 0 <= i < |models| :: models[i]) == set m | m in models;
    Ok(CoverState("", SizeOption.CoverDefaultSize, DefaultStyle, model, models, counts, View([], false, false)))
  }

  /** Every model offered has a count, so `cover_counts_dict[self.model]`
      cannot raise KeyError once the model passed the allow-list. */
  lemma OfferedModelsHaveCounts(coverModel: Option<string>, coverCount: Option<string>, model: string)
    ensures var r := Init(coverModel, coverCount);
      r.Ok? && model in r.value.modelOptions ==> model in r.value.counts
  {
  }

  /** The count of the model at index i: the count field at i, or 1 past
      the end of the count list, taken from the last repeat of the name. */
  lemma CountOfModel(coverModel: string, coverCount: string, i: nat)
    ensures var models := ModelList(coverModel);
      var r := Init(Some(coverModel), Some(coverCount));
      r.Ok? && i < |models| && LastOf(models, |models|, i) ==>
        r.value.counts[models[i]] == CountAt(Split(coverCount, ','), i).value
  {
  }

  /** With both variables unset there is nothing to choose from. */
  lemma UnsetConfig()
    ensures Init(None, None) == Ok(CoverState("", SizeOption.CoverDefaultSize, DefaultStyle, "", [], map[], View([], false, false)))
  {
  }

  // ---------------------------------------------------------------------
  // aggregation of the fan-out results

  /** The prefix of every screenshot URL. */
  const PngDataPrefix := "data:image/png;base64,"

  /** What one settled chat request contributes: a screenshot URL, or the
      alert yielded in its place. */
  function Contribution(result: Result<string, string>, screenshot: Option<string> -> Result<seq<Base64.byte>, string>)
    : (r: Result<string, Alert>)
    ensures result.Err? ==> r == Err(VariantFailed(result.error))
    ensures result.Ok? && screenshot(HtmlExtract.ExtractFirstHtmlCodeBlock(result.value)).Err? ==>
      r == Err(ScreenshotFailed(screenshot(HtmlExtract.ExtractFirstHtmlCodeBlock(result.value)).error))
    ensures r.Ok? <==> result.Ok? && screenshot(HtmlExtract.ExtractFirstHtmlCodeBlock(result.value)).Ok?
    ensures r.Ok? ==> StartsWith(r.value, PngDataPrefix)
    ensures r.Ok? ==> (Base64.Decode(r.value[|PngDataPrefix|..])
      == Some(screenshot(HtmlExtract.ExtractFirstHtmlCodeBlock(result.value)).value))
  {
    match result
    case Err(reason) => Err(VariantFailed(reason))
    case Ok(content) =>
      match screenshot(HtmlExtract.ExtractFirstHtmlCodeBlock(content))
      case Err(reason) => Err(ScreenshotFailed(reason))
      case Ok(png) =>
        var url := PngDataPrefix + Base64.Encode(png);
        Base64.DecodeEncode(png);
        assert url[|PngDataPrefix|..] == Base64.Encode(png);
        Ok(url)
  }

  /** The loop over the gathered results, in request order: the URLs
      collected and the alerts yielded. */
  function Aggregate(results: seq<Result<string, string>>, screenshot: Option<string> -> Result<seq<Base64.byte>, string>)
    : (r: (seq<string>, seq<Alert>))
    ensures |r.0| + |r.1| == |results|
    ensures forall k :: 0 <= k < |r.0| ==> StartsWith(r.0[k], PngDataPrefix)
    decreases |results|
  {
    if |results| == 0 then ([], [])
    else
      Step(Contribution(results[0], screenshot), Aggregate(results[1..], screenshot))
  }

  /** One turn of the loop over results, taken before the later ones:
      the contribution goes in front of the URL list or of the alert list. */
  function Step(c: Result<string, Alert>, acc: (seq<string>, seq<Alert>)): (r: (seq<string>, seq<Alert>))
    ensures c.Ok? ==> |r.0| == |acc.0| + 1 && r.0[0] == c.value && r.0[1..] == acc.0 && r.1 == acc.1
    ensures c.Err? ==> |r.1| == |acc.1| + 1 && r.1[0] == c.error && r.1[1..] == acc.1 && r.0 == acc.0
  {
    match c
    case Ok(url) => ([url] + acc.0, acc.1)
    case Err(alert) => (acc.0, [alert] + acc.1)
  }

  /** A step commutes with appending what later batches contribute. */
  lemma StepAppend(c: Result<string, Alert>, a: (seq<string>, seq<Alert>), b: (seq<string>, seq<Alert>))
    ensures Step(c, (a.0 + b.0, a.1 + b.1)) == (Step(c, a).0 + b.0, Step(c, a).1 + b.1)
  {
    match c
    case Ok(url) =>
      assert [url] + (a.0 + b.0) == ([url] + a.0) + b.0;
    case Err(alert) =>
      assert [alert] + (a.1 + b.1) == ([alert] + a.1) + b.1;
  }

  /** Aggregating two batches one after the other is aggregating them
      together: the loop keeps request order and each result is handled on
      its own. */
  lemma {:induction false} AggregateAppend(xs: seq<Result<string, string>>, ys: seq<Result<string, string>>,
                                           screenshot: Option<string> -> Result<seq<Base64.byte>, string>)
    ensures Aggregate(xs + ys, screenshot)
         == (Aggregate(xs, screenshot).0 + Aggregate(ys, screenshot).0,
             Aggregate(xs, screenshot).1 + Aggregate(ys, screenshot).1)
    decreases |xs|
  {
    if |xs| == 0 {
      assert xs + ys == ys;
      var b := Aggregate(ys, screenshot);
      assert [] + b.0 == b.0 && [] + b.1 == b.1;
    } else {
      assert (xs + ys)[1..] == xs[1..] + ys;
      assert (xs + ys)[0] == xs[0];
      AggregateAppend(xs[1..], ys, screenshot);
      StepAppend(Contribution(xs[0], screenshot), Aggregate(xs[1..], screenshot), Aggregate(ys, screenshot));
    }
  }

  /** One result contributes its URL or its alert. */
  lemma AggregateSingle(result: Result<string, string>, screenshot: Option<string> -> Result<seq<Base64.byte>, string>)
    ensures var c := Contribution(result, screenshot);
      Aggregate([result], screenshot) == if c.Ok? then ([c.value], []) else ([], [c.error])
  {
    var s := [result];
    assert s[1..] == [];
    var c := Contribution(result, screenshot);
    if c.Ok? {
      assert [c.value] + [] == [c.value];
    } else {
      assert [c.error] + [] == [c.error];
    }
  }

  /** Three requests of which the second raised and the others were shot:
      two URLs, in order, and one alert. */
  lemma ThreeVariants(c1: string, c3: string, reason: string,
                      screenshot: Option<string> -> Result<seq<Base64.byte>, string>)
    requires screenshot(HtmlExtract.ExtractFirstHtmlCodeBlock(c1)).Ok?
    requires screenshot(HtmlExtract.ExtractFirstHtmlCodeBlock(c3)).Ok?
    ensures var r := Aggregate([Ok(c1), Err(reason), Ok(c3)], screenshot);
      && r.0 == [Contribution(Ok(c1), screenshot).value, Contribution(Ok(c3), screenshot).value]
      && r.1 == [VariantFailed(reason)]
  {
    var x1: Result<string, string> := Ok(c1);
    var x2: Result<string, string> := Err(reason);
    var x3: Result<string, string> := Ok(c3);
    AggregateSingle(x1, screenshot);
    AggregateSingle(x2, screenshot);
    AggregateSingle(x3, screenshot);
    AggregateAppend([x1], [x2], screenshot);
    AggregateAppend([x1] + [x2], [x3], screenshot);
    assert [x1, x2, x3] == [x1] + [x2] + [x3];
  }

  // ---------------------------------------------------------------------
  // get_image

  /** The cover-design prompt: which parts of the state it is made of. */
  datatype CoverPrompt = CoverPrompt(width: int, height: int, topic: string, style: string)

  /** The outbound requests of one `get_image` run. */
  datatype CoverRequest =
    | Chat(model: string, prompt: CoverPrompt)  // `fetch_image`
    | Screenshot(html: Option<string>)          // `take_screenshot`

  /** The screenshot requests, one per chat answer, in request order. */
  function ScreenshotRequests(results: seq<Result<string, string>>): (reqs: seq<CoverRequest>)
    ensures |reqs| <= |results|
    ensures forall k :: 0 <= k < |reqs| ==> reqs[k].Screenshot?
    ensures (forall k :: 0 <= k < |results| ==> results[k].Ok?) ==>
      && |reqs| == |results|
      && forall k :: 0 <= k < |results| ==>
           reqs[k] == Screenshot(HtmlExtract.ExtractFirstHtmlCodeBlock(results[k].value))
    ensures (forall k :: 0 <= k < |results| ==> results[k].Err?) ==> reqs == []
    decreases |results|
  {
    if |results| == 0 then []
    else
      var rest := ScreenshotRequests(results[1..]);
      match results[0]
      case Err(_) => rest
      case Ok(content) => [Screenshot(HtmlExtract.ExtractFirstHtmlCodeBlock(content))] + rest
  }

  /** The screenshot requests of two batches are those of the first, then
      those of the second: request order is kept. */
  lemma {:induction false} ScreenshotAppend(xs: seq<Result<string, string>>, ys: seq<Result<string, string>>)
    ensures ScreenshotRequests(xs + ys) == ScreenshotRequests(xs) + ScreenshotRequests(ys)
    decreases |xs|
  {
    if |xs| == 0 {
      assert xs + ys == ys;
    } else {
      assert (xs + ys)[1..] == xs[1..] + ys;
      assert (xs + ys)[0] == xs[0];
      ScreenshotAppend(xs[1..], ys);
      if xs[0].Ok? {
        var shot := Screenshot(HtmlExtract.ExtractFirstHtmlCodeBlock(xs[0].value));
        var a := ScreenshotRequests(xs[1..]);
        var b := ScreenshotRequests(ys);
        assert [shot] + (a + b) == ([shot] + a) + b;
      }
    }
  }

  /** An answer is screenshot once, from the HTML extracted from it; a
      raised request is not. */
  lemma ScreenshotSingle(result: Result<string, string>)
    ensures ScreenshotRequests([result]) ==
      if result.Ok? then [Screenshot(HtmlExtract.ExtractFirstHtmlCodeBlock(result.value))] else []
  {
    var s := [result];
    assert s[1..] == [];
    if result.Ok? {
      var shot := Screenshot(HtmlExtract.ExtractFirstHtmlCodeBlock(result.value));
      assert [shot] + [] == [shot];
    }
  }

  /** `count` requests are issued: `range(count)` is empty for a count
      below one. */
  function RequestCount(count: int): (n: nat)
    ensures count >= 0 ==> n == count
    ensures count < 0 ==> n == 0
  {
    if count < 0 then 0 else count
  }

  /** `get_image` */
  function GetImage(st: CoverState, fetch: nat -> Result<string, string>,
                    screenshot: Option<string> -> Result<seq<Base64.byte>, string>)
    : (r: Run<CoverRequest>)
    ensures st.prompt == "" ==> r == Run(st.view, [PromptRequired], [])
    ensures st.prompt != "" ==> !r.view.processing && r.view.complete
    ensures st.prompt != "" && SizeOption.Dimensions(st.size).Err? ==>
      r.sent == [] && r.view == Finish(st.view)
      && r.alerts == [GenerationFailed(Local(SizeOption.Dimensions(st.size).error))]
    ensures st.prompt != "" && SizeOption.Dimensions(st.size).Ok? && st.model !in st.modelOptions ==>
      r.sent == [] && r.view == Finish(st.view) && r.alerts == [GenerationFailed(Local(UnknownModel))]
  {
    if st.prompt == "" then Run(st.view, [PromptRequired], [])
    else
      var view := Begin(st.view);
      match SizeOption.Dimensions(st.size)
      case Err(e) => Run(Finish(view), [GenerationFailed(Local(e))], [])
      case Ok((width, height)) =>
        if st.model !in st.modelOptions then
          Run(Finish(view), [GenerationFailed(Local(UnknownModel))], [])
        else if st.model !in st.counts then
          Run(Finish(view), [GenerationFailed(Local(KeyError))], [])
        else
          var n := RequestCount(st.counts[st.model]);
          var chat := Chat(st.model, CoverPrompt(width, height, st.prompt, st.style));
          var results := seq(n, i requires 0 <= i < n => fetch(i));
          var (urls, alerts) := Aggregate(results, screenshot);
          var chats := seq(n, i requires 0 <= i < n => chat);
          Run(Finish(view).(imageUrls := urls), alerts, chats + ScreenshotRequests(results))
  }

  /** A run that passes the checks sends exactly `count` chat requests for
      the chosen model, before any screenshot request, and shows one URL
      per answer that could be shot, at most `count` of them. */
  lemma GetImageFansOut(st: CoverState, fetch: nat -> Result<string, string>,
                        screenshot: Option<string> -> Result<seq<Base64.byte>, string>)
    requires st.prompt != "" && SizeOption.Dimensions(st.size).Ok?
    requires st.model in st.modelOptions && st.model in st.counts
    ensures var r := GetImage(st, fetch, screenshot);
      var n := RequestCount(st.counts[st.model]);
      var results := seq(n, i requires 0 <= i < n => fetch(i));
      && n <= |r.sent|
      && (forall k :: 0 <= k < n ==> r.sent[k].Chat? && r.sent[k].model == st.model)
      && (forall k :: n <= k < |r.sent| ==> r.sent[k].Screenshot?)
      && r.sent[n..] == ScreenshotRequests(results)
      && r.view.imageUrls == Aggregate(results, screenshot).0
      && r.alerts == Aggregate(results, screenshot).1
      && |r.view.imageUrls| <= n
      && |r.view.imageUrls| + |r.alerts| == n
  {
  }

  /** The prompt sent carries the width and height of the chosen size. */
  lemma GetImagePromptSize(st: CoverState, fetch: nat -> Result<string, string>,
                           screenshot: Option<string> -> Result<seq<Base64.byte>, string>,
                           spec: SizeOption.SizeSpec)
    requires st.prompt != "" && st.size == SizeOption.Render(spec)
    requires IsDigits(spec.width) && IsDigits(spec.height)
    requires st.model in st.modelOptions && st.model in st.counts && st.counts[st.model] > 0
    ensures var r := GetImage(st, fetch, screenshot);
      |r.sent| > 0 && r.sent[0] == Chat(st.model, CoverPrompt(DigitsValue(spec.width), DigitsValue(spec.height), st.prompt, st.style))
  {
    SizeOption.DimensionsOfRender(spec);
  }
}

=== FILE: gemini_image.dfy ===
/** The gemini image-editing page: `get_image` sends the prompt and the
    uploaded image (as a data URI) to a chat-completion endpoint and shows
    the images of the answer. The answer comes in one of two shapes, which
    `NormalizeChat` flattens into one list of URLs or data URIs. The
    decoded JSON reply, the bytes of the uploaded file and the HTTP
    exchange are parameters. */
module GeminiImage {
  import opened Results
  import opened Text
  import opened Page
  import Base64
  import CommonTool

  /** `images[i]`, with the `url` inside its `image_url` (None when either
      key is missing). */
  datatype ChatImage = ChatImage(url: Option<string>)

  /** One block of the `content` list: its `type` and its `image_url`
      (None when the key is missing). */
  datatype ContentBlock = ContentBlock(kind: Option<string>, imageUrl: Option<string>)

  /** `choices[0].message`, with its optional `images` and `content` keys. */
  datatype ChatMessage = ChatMessage(images: Option<seq<ChatImage>>, content: Option<seq<ContentBlock>>)

  datatype Choice = Choice(message: Option<ChatMessage>)

  /** The decoded body of a 200 reply. */
  datatype ChatReply = ChatReply(choices: Option<seq<Choice>>)

  /** `data['choices'][0]['message']` */
  function FirstMessage(reply: ChatReply): (r: Result<ChatMessage, ErrorKind>)
    ensures r.Ok? <==> reply.choices.Some? && |reply.choices.value| > 0 && reply.choices.value[0].message.Some?
    ensures r.Ok? ==> r.value == reply.choices.value[0].message.value
    ensures reply.choices.None? ==> r == Err(KeyError)
    ensures reply.choices.Some? && |reply.choices.value| == 0 ==> r == Err(IndexError)
    ensures reply.choices.Some? && |reply.choices.value| > 0 && reply.choices.value[0].message.None? ==>
      r == Err(KeyError)
  {
    match reply.choices
    case None => Err(KeyError)
    case Some(choices) =>
      if |choices| == 0 then Err(IndexError)
      else if choices[0].message.None? then Err(KeyError)
      else Ok(choices[0].message.value)
  }

  /** `content.get('type', '')` */
  function BlockType(block: ContentBlock): string {
    block.kind.GetOr("")
  }

  /** A block contributes an image when its type starts with `image/`. */
  predicate IsImageBlock(block: ContentBlock) {
    StartsWith(BlockType(block), "image/")
  }

  /** An `image_url` that is already a data URI or a web address. */
  predicate IsAddress(url: string) {
    StartsWith(url, "data:") || StartsWith(url, "http")
  }

  /** The address an image block contributes: its `image_url` as it is
      when that is already an address, else a data URI of the block's type
      around it. */
  function BlockAddress(block: ContentBlock): (r: Result<string, ErrorKind>)
    requires IsImageBlock(block)
    ensures r.Err? <==> block.imageUrl.None?
    ensures r.Err? ==> r.error == KeyError
    ensures r.Ok? && IsAddress(block.imageUrl.value) ==> r.value == block.imageUrl.value
    ensures r.Ok? && !IsAddress(block.imageUrl.value) ==>
      r.value == CommonTool.DataUri(block.kind.value, block.imageUrl.value)
  {
    match block.imageUrl
    case None => Err(KeyError)
    case Some(url) =>
      if IsAddress(url) then Ok(url) else Ok(CommonTool.DataUri(block.kind.value, url))
  }

  /** The loop over `content`: the address of every image block, in block
      order; KeyError at the first image block without `image_url`. */
  function ContentImages(blocks: seq<ContentBlock>): (r: Result<seq<string>, ErrorKind>)
    ensures r.Ok? <==> forall k :: 0 <= k < |blocks| && IsImageBlock(blocks[k]) ==> blocks[k].imageUrl.Some?
    ensures r.Ok? ==> |r.value| <= |blocks|
    ensures r.Err? ==> r.error == KeyError
    decreases |blocks|
  {
    if |blocks| == 0 then Ok([])
    else
      var rest :- ContentImages(blocks[1..]);
      if IsImageBlock(blocks[0]) then
        var first :- BlockAddress(blocks[0]);
        Ok([first] + rest)
      else Ok(rest)
  }

  /** `image_urls` from a message: exactly the first image of `images` when
      that key is present, otherwise the images of `content`. */
  function NormalizeChat(msg: ChatMessage): (r: Result<seq<string>, ErrorKind>)
    ensures msg.images.Some? && |msg.images.value| == 0 ==> r == Err(IndexError)
    ensures msg.images.Some? && |msg.images.value| > 0 ==>
      (r.Ok? <==> msg.images.value[0].url.Some?)
    ensures msg.images.Some? && r.Err? ==> r.error == IndexError || r.error == KeyError
    ensures msg.images.Some? && r.Ok? ==>
      (|msg.images.value| > 0 && msg.images.value[0].url.Some? && r.value == [msg.images.value[0].url.value])
    ensures msg.images.None? && msg.content.None? ==> r == Err(KeyError)
    ensures msg.images.None? && msg.content.Some? ==> r == ContentImages(msg.content.value)
  {
    match msg.images
    case Some(images) =>
      if |images| == 0 then Err(IndexError)
      else if images[0].url.None? then Err(KeyError)
      else Ok([images[0].url.value])
    case None =>
      if msg.content.None? then Err(KeyError) else ContentImages(msg.content.value)
  }

  /** `images` wins: `content` is not looked at when `images` is present. */
  lemma ImagesIgnoreContent(images: seq<ChatImage>, c1: Option<seq<ContentBlock>>, c2: Option<seq<ContentBlock>>)
    ensures NormalizeChat(ChatMessage(Some(images), c1)) == NormalizeChat(ChatMessage(Some(images), c2))
  {
  }

  /** The content loop is a concatenation over blocks, so block order is
      kept. */
  lemma {:induction false} ContentImagesAppend(xs: seq<ContentBlock>, ys: seq<ContentBlock>)
    requires ContentImages(xs).Ok? && ContentImages(ys).Ok?
    ensures ContentImages(xs + ys) == Ok(ContentImages(xs).value + ContentImages(ys).value)
    decreases |xs|
  {
    if |xs| == 0 {
      assert xs + ys == ys;
      assert [] + ContentImages(ys).value == ContentImages(ys).value;
    } else {
      assert (xs + ys)[1..] == xs[1..] + ys;
      assert (xs + ys)[0] == xs[0];
      ContentImagesAppend(xs[1..], ys);
      var a := ContentImages(xs[1..]).value;
      var b := ContentImages(ys).value;
      if IsImageBlock(xs[0]) {
        var first := BlockAddress(xs[0]).value;
        assert [first] + (a + b) == ([first] + a) + b;
      }
    }
  }

  /** What one block contributes on its own. */
  lemma ContentImagesSingle(block: ContentBlock)
    ensures ContentImages([block]) ==
      if !IsImageBlock(block) then Ok([])
      else if block.imageUrl.None? then Err(KeyError)
      else Ok([BlockAddress(block).value])
  {
    var s := [block];
    assert s[1..] == [];
    if IsImageBlock(block) && block.imageUrl.Some? {
      assert [BlockAddress(block).value] + [] == [BlockAddress(block).value];
    }
  }

  /** The bare base-64 payload of a PNG block becomes a PNG data URI. */
  lemma PngBlock()
    ensures NormalizeChat(ChatMessage(None, Some([ContentBlock(Some("image/png"), Some("abc123"))])))
         == Ok(["data:image/png;base64,abc123"])
  {
    var block := ContentBlock(Some("image/png"), Some("abc123"));
    assert StartsWith("image/png", "image/");
    assert !StartsWith("abc123", "data:") && !StartsWith("abc123", "http");
    ContentImagesSingle(block);
    assert CommonTool.DataUri("image/png", "abc123") == "data:image/png;base64,abc123";
  }

  // ---------------------------------------------------------------------
  // get_image

  datatype GeminiState = GeminiState(prompt: string, uploadImg: string, view: View)

  /** The one chat request: the configured model, the edit prompt, and the
      uploaded image as a data URI. */
  datatype GeminiRequest = GeminiRequest(model: Option<string>, prompt: string, image: string)

  /** `get_image`. `model` is `GEMINI_IMAGE_COVER_MODEL`, `upload` the
      result of reading the uploaded file, `reply` the HTTP exchange. */
  function GetImage(st: GeminiState, model: Option<string>, upload: Result<seq<Base64.byte>, string>,
                    reply: HttpReply<ChatReply>)
    : (r: Run<GeminiRequest>)
    ensures st.prompt == "" ==> r == Run(st.view, [PromptRequired], [])
    ensures st.prompt != "" && st.uploadImg == "" ==> r == Run(st.view, [ImageRequired], [])
    ensures st.prompt != "" && st.uploadImg != "" ==> !r.view.processing && r.view.complete
    ensures st.prompt != "" && st.uploadImg != "" && upload.Err? ==>
      r.sent == [] && r.view.imageUrls == [] && r.alerts == [GenerationFailed(Raised(upload.error))]
    ensures st.prompt != "" && st.uploadImg != "" && upload.Ok? ==>
      r.sent == [GeminiRequest(model, st.prompt, CommonTool.ImageToBase64(st.uploadImg, upload.value))]
    ensures st.prompt != "" && st.uploadImg != "" && r.alerts != [] ==> r.view.imageUrls == []
    ensures st.prompt != "" && st.uploadImg != "" && reply.Reply? && reply.status != 200 && upload.Ok? ==>
      r.view.imageUrls == [] && r.alerts == [GenerationFailed(Status(reply.status, reply.text))]
    ensures st.prompt != "" && st.uploadImg != "" && upload.Ok? && Answer(reply).Ok? ==>
      r.view.imageUrls == Answer(reply).value && r.alerts == []
    ensures st.prompt != "" && st.uploadImg != "" && upload.Ok? && Answer(reply).Err? ==>
      r.view.imageUrls == [] && r.alerts == [GenerationFailed(Answer(reply).error)]
  {
    if st.prompt == "" then Run(st.view, [PromptRequired], [])
    else if st.uploadImg == "" then Run(st.view, [ImageRequired], [])
    else
      var view := Begin(st.view).(imageUrls := []);
      match upload
      case Err(reason) => Run(Finish(view), [GenerationFailed(Raised(reason))], [])
      case Ok(content) =>
        var request := GeminiRequest(model, st.prompt, CommonTool.ImageToBase64(st.uploadImg, content));
        match Answer(reply)
        case Ok(urls) => Run(Finish(view).(imageUrls := urls), [], [request])
        case Err(failure) => Run(Finish(view), [GenerationFailed(failure)], [request])
  }

  /** The images of the reply, or why there are none. */
  function Answer(reply: HttpReply<ChatReply>): (r: Result<seq<string>, Failure>)
    ensures reply.NoReply? ==> r == Err(Raised(reply.reason))
    ensures reply.Reply? && reply.status != 200 ==> r == Err(Status(reply.status, reply.text))
    ensures r.Ok? <==> (reply.Reply? && reply.status == 200 && reply.json.Ok?
      && FirstMessage(reply.json.value).Ok? && NormalizeChat(FirstMessage(reply.json.value).value).Ok?)
    ensures r.Ok? ==> r.value == NormalizeChat(FirstMessage(reply.json.value).value).value
  {
    match reply
    case NoReply(reason) => Err(Raised(reason))
    case Reply(status, json, text) =>
      if status != 200 then Err(Status(status, text))
      else
        match json
        case Err(reason) => Err(Raised(reason))
        case Ok(data) =>
          match FirstMessage(data)
          case Err(e) => Err(Local(e))
          case Ok(msg) =>
            match NormalizeChat(msg)
            case Err(e) => Err(Local(e))
            case Ok(urls) => Ok(urls)
  }

  /** A successful run shows exactly the normalised images of the first
      choice's message, whatever the other choices hold. */
  lemma GetImageShowsReply(st: GeminiState, model: Option<string>, content: seq<Base64.byte>,
                           choices: seq<Choice>, msg: ChatMessage, text: string)
    requires st.prompt != "" && st.uploadImg != "" && NormalizeChat(msg).Ok?
    requires |choices| > 0 && choices[0] == Choice(Some(msg))
    ensures var reply := Reply(200, Ok(ChatReply(Some(choices))), text);
      var r := GetImage(st, model, Ok(content), reply);
      r.view.imageUrls == NormalizeChat(msg).value && r.alerts == [] && |r.sent| == 1
  {
  }
}

=== FILE: gpt4o.dfy ===
/** The gpt4o page: `get_image` asks the image-generation endpoint for one
    image of the chosen `WIDTHxHEIGHT` and shows the `url` of every item of
    the reply. The HTTP exchange and the `GPT4O_MODEL` setting are
    parameters. */
module Gpt4o {
  import opened Results
  import opened Page
  import SizeOption
  import Responses

  /** The model when `GPT4O_MODEL` is unset. */
  const DefaultModel := "gpt-4o-image"

  datatype Gpt4oState = Gpt4oState(prompt: string, size: string, view: View)

  /** The JSON payload of the one request; `n` is always 1. */
  datatype Gpt4oPayload = Gpt4oPayload(model: string, prompt: string, size: string, n: int)

  /** The images of the reply, or why there are none. */
  function Answer(reply: HttpReply<Responses.DataReply>): (r: Result<seq<string>, Failure>)
    ensures reply.NoReply? ==> r == Err(Raised(reply.reason))
    ensures reply.Reply? && reply.status != 200 ==> r == Err(Status(reply.status, reply.text))
    ensures r.Ok? <==> (reply.Reply? && reply.status == 200 && reply.json.Ok?
      && Responses.DataUrls(reply.json.value).Ok?)
    ensures r.Ok? ==> r.value == Responses.DataUrls(reply.json.value).value
  {
    match reply
    case NoReply(reason) => Err(Raised(reason))
    case Reply(status, json, text) =>
      if status != 200 then Err(Status(status, text))
      else
        match json
        case Err(reason) => Err(Raised(reason))
        case Ok(data) =>
          match Responses.DataUrls(data)
          case Err(e) => Err(Local(e))
          case Ok(urls) => Ok(urls)
  }

  /** `get_image`. `model` is `GPT4O_MODEL`, `reply` the HTTP exchange. */
  function GetImage(st: Gpt4oState, model: Option<string>, reply: HttpReply<Responses.DataReply>)
    : (r: Run<Gpt4oPayload>)
    ensures st.prompt == "" ==> r == Run(st.view, [PromptRequired], [])
    ensures st.prompt != "" ==> !r.view.processing && r.view.complete
    ensures st.prompt != "" && r.alerts != [] ==> r.view.imageUrls == st.view.imageUrls
    ensures st.prompt != "" && SizeOption.WxH(st.size).Err? ==> r.sent == [] && |r.alerts| == 1
    ensures st.prompt != "" && SizeOption.WxH(st.size).Ok? ==>
      r.sent == [Gpt4oPayload(model.GetOr(DefaultModel), st.prompt, SizeOption.WxH(st.size).value, 1)]
    ensures st.prompt != "" && SizeOption.WxH(st.size).Err? ==>
      r.alerts == [GenerationFailed(Local(SizeOption.WxH(st.size).error))]
    ensures st.prompt != "" && SizeOption.WxH(st.size).Ok? && Answer(reply).Ok? ==>
      r.view.imageUrls == Answer(reply).value && r.alerts == []
    ensures st.prompt != "" && SizeOption.WxH(st.size).Ok? && Answer(reply).Err? ==>
      r.view.imageUrls == st.view.imageUrls && r.alerts == [GenerationFailed(Answer(reply).error)]
  {
    if st.prompt == "" then Run(st.view, [PromptRequired], [])
    else
      var view := Begin(st.view);
      match SizeOption.WxH(st.size)
      case Err(e) => Run(Finish(view), [GenerationFailed(Local(e))], [])
      case Ok(size) =>
        var payload := Gpt4oPayload(model.GetOr(DefaultModel), st.prompt, size, 1);
        match Answer(reply)
        case Ok(urls) => Run(Finish(view).(imageUrls := urls), [], [payload])
        case Err(failure) => Run(Finish(view), [GenerationFailed(failure)], [payload])
  }

  /** For every size option the payload asks for its leading `WxH`, and the
      item URLs of a good reply are shown in order. */
  lemma GetImageOption(st: Gpt4oState, i: nat, model: Option<string>, items: seq<Responses.DataItem>, text: string)
    requires st.prompt != "" && i < |SizeOption.Gpt4oSizeOptions| && st.size == SizeOption.Gpt4oSizeOptions[i]
    requires forall k :: 0 <= k < |items| ==> items[k].url.Some?
    ensures var spec := SizeOption.Gpt4oSizeSpecs[i];
      var r := GetImage(st, model, Reply(200, Ok(Responses.DataReply(Some(items))), text));
      && r.sent == [Gpt4oPayload(model.GetOr(DefaultModel), st.prompt, spec.width + "x" + spec.height, 1)]
      && |r.view.imageUrls| == |items|
      && (forall k :: 0 <= k < |items| ==> r.view.imageUrls[k] == items[k].url.value)
  {
    SizeOption.Gpt4oSizes();
  }

  /** A non-200 reply leaves the images shown before in place. */
  lemma FailureKeepsImages(st: Gpt4oState, model: Option<string>, status: int,
                            body: Result<Responses.DataReply, string>, text: string)
    requires st.prompt != "" && status != 200
    ensures var r := GetImage(st, model, Reply(status, body, text));
      SizeOption.WxH(st.size).Ok? ==>
        r.view.imageUrls == st.view.imageUrls && r.alerts == [GenerationFailed(Status(status, text))]
  {
  }
}

=== FILE: html_extract.dfy ===
/** `extract_first_html_code_block` of the cover page: the first match of
    `<!DOCTYPE html>.*?<html.*?>.*?</html>`, else the first match of
    `<html.*?>.*?</html>`, both searched with DOTALL and IGNORECASE, else
    None.

    A match is described by four positions: where it starts, where its
    `<html` is, where the `>` closing that tag is, and where its `</html>`
    is. With DOTALL every `.*?` spans any text, so a regular-expression
    search returns the match with the leftmost start and, for that start,
    the lazily (i.e. lexicographically) smallest choice of the other three
    positions. The stages below compute the componentwise least match and
    prove that it is one, which is the same thing. IGNORECASE is ASCII
    case folding here: none of the letters in the two patterns has a
    non-ASCII case partner that could fold onto it. */
module HtmlExtract {
  import opened Results
  import opened Text

  const Doctype := "<!DOCTYPE html>"
  const HtmlOpen := "<html"
  const TagEnd := ">"
  const HtmlClose := "</html>"

  datatype Match = Match(start: nat, open: nat, gt: nat, close: nat)

  /** `<html.*?>.*?</html>` with `<html` at `m.open`, `>` at `m.gt` and
      `</html>` at `m.close`. */
  predicate Tail(text: string, m: Match) {
    && OccursCI(text, HtmlOpen, m.open)
    && m.open + |HtmlOpen| <= m.gt && OccursCI(text, TagEnd, m.gt)
    && m.gt + |TagEnd| <= m.close && OccursCI(text, HtmlClose, m.close)
  }

  /** A match of the DOCTYPE pattern. */
  predicate DoctypeMatch(text: string, m: Match) {
    OccursCI(text, Doctype, m.start) && m.start + |Doctype| <= m.open && Tail(text, m)
  }

  /** A match of the bare pattern: it starts at its `<html`. */
  predicate BareMatch(text: string, m: Match) {
    m.start == m.open && Tail(text, m)
  }

  /** `a` is at or before `b` in every position. */
  predicate Below(a: Match, b: Match) {
    a.start <= b.start && a.open <= b.open && a.gt <= b.gt && a.close <= b.close
  }

  /** The text a match covers. */
  function Covered(text: string, m: Match): string
    requires m.start <= m.close + |HtmlClose| <= |text|
  {
    text[m.start..m.close + |HtmlClose|]
  }

  /** `sub` occurs in `text` at index `i`. */
  predicate SubstringAt(text: string, sub: string, i: int) {
    0 <= i && i + |sub| <= |text| && text[i..i + |sub|] == sub
  }

  /** The least `<html…>…</html>` whose `<html` is at or after `from`; its
      start is set to its `<html`. */
  function TailFrom(text: string, from: nat): (r: Option<Match>)
    ensures r.Some? ==> BareMatch(text, r.value) && from <= r.value.open
    ensures r.Some? ==> forall m :: Tail(text, m) && from <= m.open ==>
      r.value.open <= m.open && r.value.gt <= m.gt && r.value.close <= m.close
    ensures r.None? ==> forall m :: Tail(text, m) ==> m.open < from
  {
    match FindCI(text, HtmlOpen, from)
    case None => None
    case Some(open) =>
      match FindCI(text, TagEnd, open + |HtmlOpen|)
      case None => None
      case Some(gt) =>
        match FindCI(text, HtmlClose, gt + |TagEnd|)
        case None => None
        case Some(close) => Some(Match(open, open, gt, close))
  }

  /** The DOCTYPE stage: the least DOCTYPE match, None when there is none. */
  function DoctypeStage(text: string): (r: Option<Match>)
    ensures r.Some? ==> DoctypeMatch(text, r.value)
    ensures r.Some? ==> forall m :: DoctypeMatch(text, m) ==> Below(r.value, m)
    ensures r.None? <==> forall m :: !DoctypeMatch(text, m)
  {
    match FindCI(text, Doctype, 0)
    case None => None
    case Some(start) =>
      match TailFrom(text, start + |Doctype|)
      case None =>
        FirstDoctypeSuffices(text, start);
        None
      case Some(m) =>
        FirstDoctypeSuffices(text, start);
        var found := m.(start := start);
        assert DoctypeMatch(text, found);
        Some(found)
  }

  /** Every DOCTYPE match starts at or after the first DOCTYPE, so its tail
      also serves the first DOCTYPE: only the first one needs trying. */
  lemma FirstDoctypeSuffices(text: string, start: nat)
    requires FindCI(text, Doctype, 0) == Some(start)
    ensures forall m :: DoctypeMatch(text, m) ==> start <= m.start && start + |Doctype| <= m.open
  {
  }

  /** The bare stage: the least bare match, None when there is none. */
  function BareStage(text: string): (r: Option<Match>)
    ensures r.Some? ==> BareMatch(text, r.value)
    ensures r.Some? ==> forall m :: BareMatch(text, m) ==> Below(r.value, m)
    ensures r.None? <==> forall m :: !BareMatch(text, m)
  {
    TailFrom(text, 0)
  }

  /** `extract_first_html_code_block`, as the match it returns. */
  function ExtractMatch(text: string): (r: Option<Match>)
    ensures r.Some? ==> DoctypeMatch(text, r.value) || BareMatch(text, r.value)
  {
    match DoctypeStage(text)
    case Some(m) => Some(m)
    case None => BareStage(text)
  }

  /** `extract_first_html_code_block` */
  function ExtractFirstHtmlCodeBlock(text: string): (r: Option<string>)
    ensures r.Some? <==> ExtractMatch(text).Some?
    ensures r.Some? ==> SubstringAt(text, r.value, ExtractMatch(text).value.start)
    ensures r.Some? ==> EndsWithCI(r.value, HtmlClose)
    ensures r.Some? ==> |r.value| == ExtractMatch(text).value.close + |HtmlClose| - ExtractMatch(text).value.start
  {
    match ExtractMatch(text)
    case None => None
    case Some(m) =>
      CoveredShape(text, m);
      Some(Covered(text, m))
  }

  /** The covered text of a match sits in the text at the match's start
      and ends with its `</html>`. */
  lemma CoveredShape(text: string, m: Match)
    requires m.start <= m.open && Tail(text, m)
    ensures SubstringAt(text, Covered(text, m), m.start)
    ensures EndsWithCI(Covered(text, m), HtmlClose)
  {
    var block := Covered(text, m);
    assert block[|block| - |HtmlClose|..] == text[m.close..m.close + |HtmlClose|];
  }

  /** A DOCTYPE match holds a bare match, so the search fails exactly when
      there is no `<html`, later `>`, later `</html>`. */
  lemma NoneIffNoBareMatch(text: string)
    ensures ExtractFirstHtmlCodeBlock(text).None? <==> forall m :: !BareMatch(text, m)
  {
    if m :| DoctypeMatch(text, m) {
      assert BareMatch(text, m.(start := m.open));
    }
  }

  /** When the DOCTYPE pattern matches anywhere the result starts with the
      DOCTYPE, even if a bare `<html>` block comes earlier in the text. */
  lemma DoctypePreferred(text: string, m: Match)
    requires DoctypeMatch(text, m)
    ensures ExtractFirstHtmlCodeBlock(text).Some?
    ensures StartsWithCI(ExtractFirstHtmlCodeBlock(text).value, Doctype)
  {
    var d := DoctypeStage(text).value;
    assert ExtractMatch(text) == Some(d);
    CoveredStartsWithDoctype(text, d);
  }

  /** The text a DOCTYPE match covers starts with the DOCTYPE. */
  lemma CoveredStartsWithDoctype(text: string, d: Match)
    requires DoctypeMatch(text, d)
    ensures StartsWithCI(Covered(text, d), Doctype)
  {
    var block := Covered(text, d);
    assert block[..|Doctype|] == text[d.start..d.start + |Doctype|];
  }

  /** Without a DOCTYPE match the result is the block from the leftmost
      `<html` that is followed by a `>` and then a `</html>`, up to the
      first such `</html>`. */
  lemma BareFallback(text: string)
    requires forall d :: !DoctypeMatch(text, d)
    ensures ExtractMatch(text) == BareStage(text)
    ensures ExtractMatch(text).Some? ==> forall m :: BareMatch(text, m) ==>
      ExtractMatch(text).value.start <= m.start
  {
  }

  /** `</html>` first occurs in `body + "</html>"` at its end: the body
      does not close the document early. */
  predicate ClosesOnce(body: string) {
    forall k :: 0 <= k < |body| ==> !OccursCI(body + HtmlClose, HtmlClose, k)
  }

  /** A document embedded in prose is returned as it is, surrounding prose
      excluded, when the prose before it holds no `<` and its body no
      `</html>`. */
  lemma EmbeddedDocument(pre: string, body: string, post: string)
    requires '<' !in pre && ClosesOnce(body)
    ensures var doc := Doctype + HtmlOpen + TagEnd + body + HtmlClose;
      ExtractFirstHtmlCodeBlock(pre + doc + post) == Some(doc)
  {
    var doc := Doctype + HtmlOpen + TagEnd + body + HtmlClose;
    var text := pre + doc + post;
    var a := |pre|;
    var c := a + 21 + |body|;
    assert text[a..c + 7] == doc;
    assert FindCI(text, Doctype, 0) == Some(a) by {
      DocumentParts(text, doc, body, a);
      NoOpenBracket(text, Doctype, 0, a);
      FirstAt(text, Doctype, 0, a);
    }
    assert TailFrom(text, a + 15) == Some(Match(a + 15, a + 15, a + 20, c)) by {
      DocumentParts(text, doc, body, a);
      BodyDoesNotClose(text, body, a + 21);
      FirstAt(text, HtmlOpen, a + 15, a + 15);
      FirstAt(text, TagEnd, a + 20, a + 20);
      FirstAt(text, HtmlClose, a + 21, c);
    }
    assert DoctypeStage(text) == Some(Match(a, a + 15, a + 20, c));
  }

  /** Inside the text, a body that closes once holds no `</html>` either. */
  lemma BodyDoesNotClose(text: string, body: string, off: nat)
    requires off + |body| + |HtmlClose| <= |text|
    requires text[off..off + |body| + |HtmlClose|] == body + HtmlClose
    requires ClosesOnce(body)
    ensures forall k :: off <= k < off + |body| ==> !OccursCI(text, HtmlClose, k)
  {
    forall k | off <= k < off + |body|
      ensures !OccursCI(text, HtmlClose, k)
    {
      OccursShift(text, body + HtmlClose, off, HtmlClose, k - off);
    }
  }

  /** A body without `<` cannot close the document early. */
  lemma NoBracketClosesOnce(body: string)
    requires '<' !in body
    ensures ClosesOnce(body)
  {
    var w := body + HtmlClose;
    forall k | 0 <= k < |body|
      ensures !OccursCI(w, HtmlClose, k)
    {
      assert w[k] == body[k];
      MismatchAt(w, HtmlClose, k, 0);
    }
  }

  /** The document of the usage example, `<!DOCTYPE html><html><body>X</body></html>`
      inside prose, is extracted exactly. */
  lemma ExampleDocument(pre: string, post: string)
    requires '<' !in pre
    ensures var doc := Doctype + HtmlOpen + TagEnd + "<body>X</body>" + HtmlClose;
      ExtractFirstHtmlCodeBlock(pre + doc + post) == Some(doc)
  {
    var body := "<body>X</body>";
    var w := body + HtmlClose;
    forall k | 0 <= k < |body|
      ensures !OccursCI(w, HtmlClose, k)
    {
      if k == 0 {
        assert w[1] == 'b';
        MismatchAt(w, HtmlClose, k, 1);
      } else if k == 7 {
        assert w[9] == 'b';
        MismatchAt(w, HtmlClose, k, 2);
      } else {
        assert w[k] == body[k] != '<';
        MismatchAt(w, HtmlClose, k, 0);
      }
    }
    EmbeddedDocument(pre, body, post);
  }

  /** Where the four pattern pieces of an embedded document sit. */
  lemma DocumentParts(text: string, doc: string, body: string, a: nat)
    requires doc == Doctype + HtmlOpen + TagEnd + body + HtmlClose
    requires a + |doc| <= |text| && text[a..a + |doc|] == doc
    ensures OccursCI(text, Doctype, a) && OccursCI(text, HtmlOpen, a + 15)
    ensures OccursCI(text, TagEnd, a + 20) && OccursCI(text, HtmlClose, a + 21 + |body|)
    ensures text[a + 21..a + 21 + |body| + |HtmlClose|] == body + HtmlClose
  {
    var c := a + 21 + |body|;
    Window(text, doc, a, 0, 15);
    Window(text, doc, a, 15, 20);
    Window(text, doc, a, 20, 21);
    Window(text, doc, a, 21 + |body|, |doc|);
    Window(text, doc, a, 21, 21 + |body| + |HtmlClose|);
    assert doc[..15] == Doctype && doc[15..20] == HtmlOpen && doc[20..21] == TagEnd;
    assert doc[21 + |body|..] == HtmlClose && doc[21..21 + |body| + |HtmlClose|] == body + HtmlClose;
  }

  /** A slice of a window of the text is the same slice of the text. */
  lemma Window(text: string, w: string, off: nat, i: nat, j: nat)
    requires off + |w| <= |text| && text[off..off + |w|] == w && i <= j <= |w|
    ensures text[off + i..off + j] == w[i..j]
  {
    forall k | 0 <= k < j - i
      ensures text[off + i..off + j][k] == w[i..j][k]
    {
      assert w[i + k] == text[off..off + |w|][i + k];
    }
  }

  /** Occurrences inside a window of the text are occurrences in the window. */
  lemma OccursShift(text: string, w: string, off: nat, pat: string, j: nat)
    requires off + |w| <= |text| && text[off..off + |w|] == w && j + |pat| <= |w|
    ensures OccursCI(text, pat, off + j) <==> OccursCI(w, pat, j)
  {
    Window(text, w, off, j, j + |pat|);
  }

  /** A pattern starting with `<` does not occur where the text has no `<`. */
  lemma NoOpenBracket(text: string, pat: string, from: nat, to: nat)
    requires |pat| > 0 && pat[0] == '<' && to <= |text|
    requires forall k :: from <= k < to ==> text[k] != '<'
    ensures forall k :: from <= k < to ==> !OccursCI(text, pat, k)
  {
    forall k | from <= k < to
      ensures !OccursCI(text, pat, k)
    {
      if k + |pat| <= |text| {
        MismatchAt(text, pat, k, 0);
      }
    }
  }

  /** The first occurrence at or after `from`, characterised. */
  lemma FirstAt(text: string, pat: string, from: nat, at: nat)
    requires from <= at && OccursCI(text, pat, at)
    requires forall k :: from <= k < at ==> !OccursCI(text, pat, k)
    ensures FindCI(text, pat, from) == Some(at)
  {
  }

  /** One character that differs, up to case, rules an occurrence out. */
  lemma MismatchAt(text: string, pat: string, k: nat, j: nat)
    requires j < |pat| && k + j < |text| && LowerAscii(text[k + j]) != LowerAscii(pat[j])
    ensures !OccursCI(text, pat, k)
  {
    if k + |pat| <= |text| {
      assert Lower(text[k..k + |pat|])[j] != Lower(pat)[j];
    }
  }
}

=== FILE: jimeng.dfy ===
/** The jimeng page: `get_image` asks the image-generation endpoint for a
    2k image in the ratio of the chosen size option and shows the `url` of
    every item of the reply. The HTTP exchange and the `JIMENG_MODEL`
    setting are parameters. */
module Jimeng {
  import opened Results
  import opened Page
  import SizeOption
  import Responses

  /** The model when `JIMENG_MODEL` is unset. */
  const DefaultModel := "jimeng"
  /** The `resolution` every request asks for. */
  const Resolution := "2k"

  datatype JimengState = JimengState(prompt: string, size: string, view: View)

  /** The JSON payload of the one request. */
  datatype JimengPayload = JimengPayload(model: string, prompt: string, ratio: string, resolution: string)

  /** `response.raise_for_status()`: statuses from 400 up are errors. */
  predicate IsErrorStatus(status: int) {
    status >= 400
  }

  /** The images of the reply, or why there are none. */
  function Answer(reply: HttpReply<Responses.DataReply>): (r: Result<seq<string>, Failure>)
    ensures reply.NoReply? ==> r == Err(Raised(reply.reason))
    ensures reply.Reply? && IsErrorStatus(reply.status) ==> r == Err(ClientError(reply.status))
    ensures r.Ok? <==> (reply.Reply? && !IsErrorStatus(reply.status) && reply.json.Ok?
      && Responses.DataUrls(reply.json.value).Ok?)
    ensures r.Ok? ==> r.value == Responses.DataUrls(reply.json.value).value
  {
    match reply
    case NoReply(reason) => Err(Raised(reason))
    case Reply(status, json, _) =>
      if IsErrorStatus(status) then Err(ClientError(status))
      else
        match json
        case Err(reason) => Err(Raised(reason))
        case Ok(data) =>
          match Responses.DataUrls(data)
          case Err(e) => Err(Local(e))
          case Ok(urls) => Ok(urls)
  }

  /** `get_image`. `model` is `JIMENG_MODEL`, `reply` the HTTP exchange. */
  function GetImage(st: JimengState, model: Option<string>, reply: HttpReply<Responses.DataReply>)
    : (r: Run<JimengPayload>)
    ensures st.prompt == "" ==> r == Run(st.view, [PromptRequired], [])
    ensures st.prompt != "" ==> !r.view.processing && r.view.complete
    ensures st.prompt != "" && r.alerts != [] ==> r.view.imageUrls == []
    ensures st.prompt != "" && SizeOption.Ratio(st.size).Err? ==>
      r.sent == [] && r.alerts == [GenerationFailed(Local(IndexError))]
    ensures st.prompt != "" && SizeOption.Ratio(st.size).Ok? ==>
      r.sent == [JimengPayload(model.GetOr(DefaultModel), st.prompt, SizeOption.Ratio(st.size).value, Resolution)]
    ensures st.prompt != "" && SizeOption.Ratio(st.size).Ok? && Answer(reply).Ok? ==>
      r.view.imageUrls == Answer(reply).value && r.alerts == []
    ensures st.prompt != "" && SizeOption.Ratio(st.size).Ok? && Answer(reply).Err? ==>
      r.view.imageUrls == [] && r.alerts == [GenerationFailed(Answer(reply).error)]
  {
    if st.prompt == "" then Run(st.view, [PromptRequired], [])
    else
      var view := Begin(st.view).(imageUrls := []);
      match SizeOption.Ratio(st.size)
      case Err(e) => Run(Finish(view), [GenerationFailed(Local(e))], [])
      case Ok(ratio) =>
        var payload := JimengPayload(model.GetOr(DefaultModel), st.prompt, ratio, Resolution);
        match Answer(reply)
        case Ok(urls) => Run(Finish(view).(imageUrls := urls), [], [payload])
        case Err(failure) => Run(Finish(view), [GenerationFailed(failure)], [payload])
  }

  /** For every size option the payload carries the ratio between its
      parentheses, and the item URLs of a good reply are shown in order. */
  lemma GetImageOption(st: JimengState, i: nat, model: Option<string>, items: seq<Responses.DataItem>, text: string)
    requires st.prompt != "" && i < |SizeOption.JimengSizeOptions| && st.size == SizeOption.JimengSizeOptions[i]
    requires forall k :: 0 <= k < |items| ==> items[k].url.Some?
    ensures var r := GetImage(st, model, Reply(200, Ok(Responses.DataReply(Some(items))), text));
      && r.sent == [JimengPayload(model.GetOr(DefaultModel), st.prompt, SizeOption.JimengSizeSpecs[i].ratio, Resolution)]
      && |r.view.imageUrls| == |items|
      && (forall k :: 0 <= k < |items| ==> r.view.imageUrls[k] == items[k].url.value)
  {
    SizeOption.JimengRatios();
  }

  /** An error status leaves no images, whatever was shown before. */
  lemma ErrorStatusClears(st: JimengState, model: Option<string>, status: int, body: Result<Responses.DataReply, string>, text: string)
    requires st.prompt != "" && IsErrorStatus(status)
    ensures var r := GetImage(st, model, Reply(status, body, text));
      r.view.imageUrls == [] && |r.alerts| == 1
  {
  }
}

=== FILE: kontext.dfy ===
/** The kontext image-editing page: `get_image` translates the prompt,
    submits it with the uploaded image to an asynchronous job queue, and
    polls the job's response URL until it carries an image, for at most 60
    time units.

    The poller is a state machine over whole time units. `latency(k)` is
    the time the k-th status request takes (with any overshoot of the
    sleep after it), `replies(k)` what it returns: the decoded body, or
    the text of the exception raised while requesting or decoding it. The
    translation, the file read and the submit request are parameters too. */
module Kontext {
  import opened Results
  import opened Text
  import opened Page
  import Base64
  import CommonTool

  /** `max_wait_time` */
  const MaxWait: nat := 60
  /** `retry_interval` */
  const RetryInterval: nat := 2

  datatype PollImage = PollImage(url: Option<string>)

  /** The decoded body of a status reply: its optional `images` list. */
  datatype StatusBody = StatusBody(images: Option<seq<PollImage>>)

  /** One status reply: the body, or the exception text. */
  type StatusReply = Result<StatusBody, string>

  /** `'images' in data and data['images']`: the job is done. */
  predicate Ready(body: StatusBody) {
    body.images.Some? && |body.images.value| > 0
  }

  /** A reply after which the poller sleeps and asks again. */
  predicate Pending(reply: StatusReply) {
    reply.Ok? && !Ready(reply.value)
  }

  /** What a reply that ends the polling yields: the first image's `url`,
      KeyError when it has none, or the exception. */
  function Verdict(reply: StatusReply): (r: Result<string, Failure>)
    requires !Pending(reply)
    ensures r.Ok? <==> reply.Ok? && reply.value.images.value[0].url.Some?
    ensures r.Ok? ==> r.value == reply.value.images.value[0].url.value
    ensures reply.Err? ==> r == Err(Raised(reply.error))
  {
    match reply
    case Err(reason) => Err(Raised(reason))
    case Ok(body) =>
      match body.images.value[0].url
      case None => Err(Local(KeyError))
      case Some(url) => Ok(url)
  }

  /** The poller: still waiting at `clock` after `queries` status requests,
      or done with an outcome. */
  datatype PollState =
    | Waiting(clock: nat, queries: nat)
    | Done(outcome: Result<string, Failure>, clock: nat, queries: nat)

  /** One turn of the `while True` loop: the timeout check, then a status
      request, then either the end or a sleep. */
  function Tick(s: PollState, latency: nat -> nat, replies: nat -> StatusReply): (t: PollState)
    ensures s.Done? ==> t == s
    ensures s.Waiting? && s.clock > MaxWait ==> t == Done(Err(Local(Timeout)), s.clock, s.queries)
    ensures s.Waiting? && s.clock <= MaxWait ==> t.queries == s.queries + 1
    ensures s.Waiting? && s.clock <= MaxWait ==> (t.Waiting? <==> Pending(replies(s.queries)))
    ensures t.Waiting? ==> s.Waiting? && t.clock >= s.clock + RetryInterval
  {
    match s
    case Done(_, _, _) => s
    case Waiting(clock, queries) =>
      if clock > MaxWait then Done(Err(Local(Timeout)), clock, queries)
      else
        var reply := replies(queries);
        var now := clock + latency(queries);
        if Pending(reply) then Waiting(now + RetryInterval, queries + 1)
        else Done(Verdict(reply), now, queries + 1)
  }

  /** How far a state is from the end: every waiting turn moves the clock
      on by at least the retry interval, and past the limit the next turn
      ends. */
  function Rank(s: PollState): nat {
    if s.Done? then 0
    else if s.clock > MaxWait then 1
    else MaxWait + 3 - s.clock
  }

  /** Turns until done. */
  function RunPoll(s: PollState, latency: nat -> nat, replies: nat -> StatusReply): (t: PollState)
    ensures t.Done?
    ensures t.queries >= s.queries
    ensures s.Done? ==> t == s
    decreases Rank(s)
  {
    if s.Done? then s
    else RunPoll(Tick(s, latency, replies), latency, replies)
  }

  /** The clock when the k-th status request is about to be made: every
      earlier request took its latency and was followed by a sleep. */
  function CheckTime(latency: nat -> nat, k: nat): nat {
    if k == 0 then 0 else CheckTime(latency, k - 1) + latency(k - 1) + RetryInterval
  }

  /** `_poll_for_result`, started at clock 0. */
  function Poll(latency: nat -> nat, replies: nat -> StatusReply): (t: PollState)
    ensures t.Done?
    ensures forall j :: 0 <= j < t.queries ==> CheckTime(latency, j) <= MaxWait
    ensures forall j :: 0 <= j < t.queries - 1 ==> Pending(replies(j))
    ensures t.outcome != Err(Local(Timeout)) ==>
      && t.queries > 0
      && !Pending(replies(t.queries - 1))
      && t.outcome == Verdict(replies(t.queries - 1))
    ensures t.outcome == Err(Local(Timeout)) ==>
      && CheckTime(latency, t.queries) > MaxWait
      && forall j :: 0 <= j < t.queries ==> Pending(replies(j))
  {
    assert CheckTime(latency, 0) == 0;
    RunFrom(latency, replies, 0);
    RunPoll(Waiting(0, 0), latency, replies)
  }

  /** Running from the state before the k-th request: the timeout is
      checked before every request made, every reply but the last one was
      pending, and the outcome is the verdict of the last reply, or a
      timeout when the limit passed first. */
  lemma RunFrom(latency: nat -> nat, replies: nat -> StatusReply, k: nat)
    ensures var t := RunPoll(Waiting(CheckTime(latency, k), k), latency, replies);
      && (forall j :: k <= j < t.queries ==> CheckTime(latency, j) <= MaxWait)
      && (forall j :: k <= j < t.queries - 1 ==> Pending(replies(j)))
      && (t.outcome == Err(Local(Timeout)) || (t.queries > k && !Pending(replies(t.queries - 1))))
      && (t.outcome == Err(Local(Timeout)) ==>
            t.clock == CheckTime(latency, t.queries) > MaxWait
            && (forall j :: k <= j < t.queries ==> Pending(replies(j))))
      && (t.outcome != Err(Local(Timeout)) ==> t.outcome == Verdict(replies(t.queries - 1)))
  {
    RunFromChecks(latency, replies, k);
    RunFromOutcome(latency, replies, k);
  }

  /** Every request made from the k-th on was checked against the limit
      first, and every reply but the last was pending. */
  lemma {:induction false} RunFromChecks(latency: nat -> nat, replies: nat -> StatusReply, k: nat)
    ensures var t := RunPoll(Waiting(CheckTime(latency, k), k), latency, replies);
      && (forall j :: k <= j < t.queries ==> CheckTime(latency, j) <= MaxWait)
      && (forall j :: k <= j < t.queries - 1 ==> Pending(replies(j)))
    decreases Rank(Waiting(CheckTime(latency, k), k))
  {
    var t := CheckTime(latency, k);
    if t <= MaxWait && Pending(replies(k)) {
      StepWaits(latency, replies, k);
      RunFromChecks(latency, replies, k + 1);
    } else if t <= MaxWait {
      StepEnds(latency, replies, k);
    } else {
      StepTimesOut(latency, replies, k);
    }
  }

  /** From the k-th request on, the polling ends with the verdict of a
      reply that is not pending, or with a timeout past the limit after
      pending replies only. */
  lemma {:induction false} RunFromOutcome(latency: nat -> nat, replies: nat -> StatusReply, k: nat)
    ensures var t := RunPoll(Waiting(CheckTime(latency, k), k), latency, replies);
      && (t.outcome == Err(Local(Timeout)) || (t.queries > k && !Pending(replies(t.queries - 1))))
      && (t.outcome == Err(Local(Timeout)) ==>
            t.clock == CheckTime(latency, t.queries) > MaxWait
            && (forall j :: k <= j < t.queries ==> Pending(replies(j))))
      && (t.outcome != Err(Local(Timeout)) ==> t.outcome == Verdict(replies(t.queries - 1)))
    decreases Rank(Waiting(CheckTime(latency, k), k))
  {
    var t := CheckTime(latency, k);
    if t <= MaxWait && Pending(replies(k)) {
      StepWaits(latency, replies, k);
      RunFromOutcome(latency, replies, k + 1);
    } else if t <= MaxWait {
      StepEnds(latency, replies, k);
      assert Verdict(replies(k)) != Err(Local(Timeout));
    } else {
      StepTimesOut(latency, replies, k);
    }
  }

  /** A pending reply in time: the poller sleeps and asks again. */
  lemma StepWaits(latency: nat -> nat, replies: nat -> StatusReply, k: nat)
    requires CheckTime(latency, k) <= MaxWait && Pending(replies(k))
    ensures RunPoll(Waiting(CheckTime(latency, k), k), latency, replies)
         == RunPoll(Waiting(CheckTime(latency, k + 1), k + 1), latency, replies)
  {
    var s := Waiting(CheckTime(latency, k), k);
    assert Tick(s, latency, replies) == Waiting(CheckTime(latency, k + 1), k + 1);
  }

  /** Any other reply in time ends the polling with its verdict. */
  lemma StepEnds(latency: nat -> nat, replies: nat -> StatusReply, k: nat)
    requires CheckTime(latency, k) <= MaxWait && !Pending(replies(k))
    ensures RunPoll(Waiting(CheckTime(latency, k), k), latency, replies)
         == Done(Verdict(replies(k)), CheckTime(latency, k) + latency(k), k + 1)
  {
    var s := Waiting(CheckTime(latency, k), k);
    assert Tick(s, latency, replies) == Done(Verdict(replies(k)), CheckTime(latency, k) + latency(k), k + 1);
  }

  /** Past the limit the poller gives up before asking. */
  lemma StepTimesOut(latency: nat -> nat, replies: nat -> StatusReply, k: nat)
    requires CheckTime(latency, k) > MaxWait
    ensures RunPoll(Waiting(CheckTime(latency, k), k), latency, replies)
         == Done(Err(Local(Timeout)), CheckTime(latency, k), k)
  {
    var s := Waiting(CheckTime(latency, k), k);
    assert Tick(s, latency, replies) == Done(Err(Local(Timeout)), CheckTime(latency, k), k);
  }

  /** The poller's contract, from the start: */
  lemma PollOutcome(latency: nat -> nat, replies: nat -> StatusReply)
    ensures var t := Poll(latency, replies);
      // the timeout was checked, strictly, before every request made
      && (forall j :: 0 <= j < t.queries ==> CheckTime(latency, j) <= MaxWait)
      // a success is the first image of the first reply that is not pending
      && (t.outcome.Ok? ==>
            (&& t.queries > 0
             && (forall j :: 0 <= j < t.queries - 1 ==> Pending(replies(j)))
             && replies(t.queries - 1).Ok? && Ready(replies(t.queries - 1).value)
             && replies(t.queries - 1).value.images.value[0].url.Some?
             && t.outcome.value == replies(t.queries - 1).value.images.value[0].url.value))
      // a timeout comes after pending replies only, and no request follows it
      && (t.outcome == Err(Local(Timeout)) ==>
            (&& CheckTime(latency, t.queries) > MaxWait
             && (forall j :: 0 <= j < t.queries ==> Pending(replies(j)))))
  {
    RunFrom(latency, replies, 0);
  }

  /** With instant requests the clock is twice the number of requests. */
  lemma {:induction false} InstantCheckTime(k: nat)
    ensures CheckTime(_ => 0, k) == RetryInterval * k
  {
    if k > 0 {
      InstantCheckTime(k - 1);
    }
  }

  /** With instant requests at most 31 status requests are made; when no
      reply is ever ready the poller gives up after exactly 31, at clock 62. */
  lemma InstantPolling(replies: nat -> StatusReply)
    ensures Poll(_ => 0, replies).queries <= 31
    ensures (forall j :: 0 <= j <= 30 ==> Pending(replies(j))) ==>
      Poll(_ => 0, replies) == Done(Err(Local(Timeout)), 62, 31)
  {
    var latency: nat -> nat := _ => 0;
    var t := Poll(latency, replies);
    RunFrom(latency, replies, 0);
    InstantCheckTime(31);
    InstantCheckTime(t.queries);
  }

  // ---------------------------------------------------------------------
  // get_image

  datatype KontextState = KontextState(prompt: string, uploadImg: string, view: View)

  /** The decoded body of the submit reply: its `response_url`. */
  datatype SubmitBody = SubmitBody(responseUrl: Option<string>)

  /** The submit was accepted: a 200 reply whose body carries a `response_url`. */
  predicate Accepted(submit: HttpReply<SubmitBody>) {
    submit.Reply? && submit.status == 200 && submit.json.Ok? && submit.json.value.responseUrl.Some?
  }

  /** The outbound requests: one submit, then the status requests. */
  datatype KontextRequest =
    | Submit(prompt: string, image: string)
    | StatusQuery(responseUrl: string)

  /** `get_image`. `translated` is the outcome of translating the prompt,
      `upload` of reading the uploaded file, `submit` the submit exchange. */
  function GetImage(st: KontextState, translated: Result<string, string>,
                    upload: Result<seq<Base64.byte>, string>, submit: HttpReply<SubmitBody>,
                    latency: nat -> nat, replies: nat -> StatusReply)
    : (r: Run<KontextRequest>)
    ensures st.prompt == "" ==> r == Run(st.view, [PromptRequired], [])
    ensures st.prompt != "" && st.uploadImg == "" ==> r == Run(st.view, [ImageRequired], [])
    ensures st.prompt != "" && st.uploadImg != "" ==> !r.view.processing && r.view.complete
    ensures st.prompt != "" && st.uploadImg != "" && r.alerts != [] ==> r.view.imageUrls == st.view.imageUrls
    ensures st.prompt != "" && st.uploadImg != "" && r.alerts == [] ==> |r.view.imageUrls| == 1
    ensures st.prompt != "" && st.uploadImg != "" && (translated.Err? || upload.Err?) ==> r.sent == []
    // translating the prompt or reading the image raised
    ensures st.prompt != "" && st.uploadImg != "" && translated.Err? ==>
      r.view.imageUrls == st.view.imageUrls && r.alerts == [GenerationFailed(Raised(translated.error))]
    ensures st.prompt != "" && st.uploadImg != "" && translated.Ok? && upload.Err? ==>
      r.view.imageUrls == st.view.imageUrls && r.alerts == [GenerationFailed(Raised(upload.error))]
    // a submit that was not accepted: only the submit is sent, the images stay, one alert
    ensures st.prompt != "" && st.uploadImg != "" && translated.Ok? && upload.Ok? && !Accepted(submit) ==>
      |r.sent| == 1 && r.view.imageUrls == st.view.imageUrls && |r.alerts| == 1
    ensures st.prompt != "" && st.uploadImg != "" && translated.Ok? && upload.Ok? && submit.NoReply? ==>
      r.alerts == [GenerationFailed(Raised(submit.reason))]
    ensures st.prompt != "" && st.uploadImg != "" && translated.Ok? && upload.Ok?
            && submit.Reply? && submit.status != 200 ==>
      r.alerts == [GenerationFailed(Status(submit.status, submit.text))]
    ensures st.prompt != "" && st.uploadImg != "" && translated.Ok? && upload.Ok?
            && submit.Reply? && submit.status == 200 && submit.json.Err? ==>
      r.alerts == [GenerationFailed(Raised(submit.json.error))]
    ensures st.prompt != "" && st.uploadImg != "" && translated.Ok? && upload.Ok?
            && submit.Reply? && submit.status == 200 && submit.json.Ok? && submit.json.value.responseUrl.None? ==>
      r.alerts == [GenerationFailed(Local(KeyError))]
    // an accepted submit is followed by one status request per poll turn
    ensures st.prompt != "" && st.uploadImg != "" && translated.Ok? && upload.Ok? && Accepted(submit) ==>
      |r.sent| == 1 + Poll(latency, replies).queries
    ensures st.prompt != "" && st.uploadImg != "" && translated.Ok? && upload.Ok? ==>
      |r.sent| >= 1 && r.sent[0] == Submit(translated.value, CommonTool.ImageToBase64(st.uploadImg, upload.value))
  {
    if st.prompt == "" then Run(st.view, [PromptRequired], [])
    else if st.uploadImg == "" then Run(st.view, [ImageRequired], [])
    else
      var view := Begin(st.view);
      match (translated, upload)
      case (Err(reason), _) => Run(Finish(view), [GenerationFailed(Raised(reason))], [])
      case (Ok(_), Err(reason)) => Run(Finish(view), [GenerationFailed(Raised(reason))], [])
      case (Ok(prompt), Ok(content)) =>
        var request := Submit(prompt, CommonTool.ImageToBase64(st.uploadImg, content));
        match submit
        case NoReply(reason) => Run(Finish(view), [GenerationFailed(Raised(reason))], [request])
        case Reply(status, json, text) =>
          if status != 200 then
            Run(Finish(view), [GenerationFailed(Status(status, text))], [request])
          else if json.Err? then
            Run(Finish(view), [GenerationFailed(Raised(json.error))], [request])
          else if json.value.responseUrl.None? then
            Run(Finish(view), [GenerationFailed(Local(KeyError))], [request])
          else
            var responseUrl := json.value.responseUrl.value;
            var t := Poll(latency, replies);
            var sent := [request] + seq(t.queries, _ => StatusQuery(responseUrl));
            match t.outcome
            case Ok(url) => Run(Finish(view).(imageUrls := [url]), [], sent)
            case Err(failure) => Run(Finish(view), [GenerationFailed(failure)], sent)
  }

  /** A run that reaches the poller sends one status request per poll turn
      to the response URL, and shows the polled image alone. */
  lemma GetImagePolls(st: KontextState, prompt: string, content: seq<Base64.byte>, url: string, text: string,
                      latency: nat -> nat, replies: nat -> StatusReply)
    requires st.prompt != "" && st.uploadImg != ""
    ensures var r := GetImage(st, Ok(prompt), Ok(content), Reply(200, Ok(SubmitBody(Some(url))), text), latency, replies);
      var t := Poll(latency, replies);
      && |r.sent| == 1 + t.queries
      && (forall k :: 1 <= k < |r.sent| ==> r.sent[k] == StatusQuery(url))
      && (t.outcome.Ok? ==> r.view.imageUrls == [t.outcome.value] && r.alerts == [])
      && (t.outcome.Err? ==> r.view.imageUrls == st.view.imageUrls && r.alerts == [GenerationFailed(t.outcome.error)])
  {
  }
}

=== FILE: page.dfy ===
/** What every page's `get_image` handler has in common: the three state
    variables it writes (`image_urls`, `processing`, `complete`), the alerts
    it yields with `rx.window_alert`, the shape of an HTTP exchange with a
    provider, and the record of one handler run. */
module Page {
  import opened Results

  /** The page state the handlers write. */
  datatype View = View(imageUrls: seq<string>, processing: bool, complete: bool)

  /** `self.processing = True; self.complete = False` */
  function Begin(v: View): View {
    v.(processing := true, complete := false)
  }

  /** `self.processing = False; self.complete = True` */
  function Finish(v: View): View {
    v.(processing := false, complete := true)
  }

  /** The Python exceptions the handlers raise locally (the message text
      of `str(e)` is not modelled, only which exception it is). */
  datatype ErrorKind =
    | IndexError     // a list index past the end: `size[1]`, `images[0]`
    | ValueError     // `int(...)` on a non-numeric field
    | KeyError       // a missing key in a decoded JSON object
    | TypeError      // `str + int`
    | Timeout        // the poller's "等待超时" exception
    | UnknownModel   // the cover page's "模型不存在" exception

  /** Why a generation attempt failed. */
  datatype Failure =
    | Status(code: int, body: string)  // a non-200 reply, reported as `status-text`
    | ClientError(code: int)           // `raise_for_status()` on a 4xx/5xx reply
    | Raised(reason: string)           // an exception from a collaborator (network, file, translation)
    | Local(kind: ErrorKind)           // an exception raised by the handler's own code

  /** The alerts a handler yields, by kind. */
  datatype Alert =
    | PromptRequired                   // "提示词不能为空！"
    | ImageRequired                    // "原图不能为空！"
    | GenerationFailed(cause: Failure) // "图片生成失败！异常原因…"
    | VariantFailed(reason: string)    // cover: one fan-out request raised
    | ScreenshotFailed(reason: string) // cover: "截图失败：…"
    | NothingGenerated(body: string)   // aichart: a 200 reply with no image

  /** The outcome of one HTTP request, as the handler sees it: either the
      request raised, or a reply arrived with a status, a JSON decoding of
      its body (which may fail) and its raw text. */
  datatype HttpReply<T> =
    | NoReply(reason: string)
    | Reply(status: int, json: Result<T, string>, text: string)

  /** One handler run: the final view, the alerts yielded in order, and the
      outbound requests issued in order. */
  datatype Run<R> = Run(view: View, alerts: seq<Alert>, sent: seq<R>)
}

=== FILE: responses.dfy ===
/** The `{"data": [{"url": ...}, ...]}` reply of the image-generation
    endpoint, shared by the gpt4o and jimeng pages, and its normalisation
    `[item["url"] for item in data["data"]]`. The JSON text is taken as
    already decoded; a missing key is an absent `Option`. */
module Responses {
  import opened Results
  import opened Page

  datatype DataItem = DataItem(url: Option<string>)

  datatype DataReply = DataReply(data: Option<seq<DataItem>>)

  /** The `url` of every item, in order; KeyError if any item lacks one. */
  function ItemUrls(items: seq<DataItem>): (r: Result<seq<string>, ErrorKind>)
    ensures r.Ok? <==> forall k :: 0 <= k < |items| ==> items[k].url.Some?
    ensures r.Ok? ==> |r.value| == |items|
    ensures r.Ok? ==> forall k :: 0 <= k < |items| ==> r.value[k] == items[k].url.value
    ensures r.Err? ==> r.error == KeyError
    decreases |items|
  {
    if |items| == 0 then Ok([])
    else if items[0].url.None? then Err(KeyError)
    else
      var rest :- ItemUrls(items[1..]);
      Ok([items[0].url.value] + rest)
  }

  /** `[item["url"] for item in data["data"]]` */
  function DataUrls(reply: DataReply): (r: Result<seq<string>, ErrorKind>)
    ensures r.Ok? <==> reply.data.Some? && ItemUrls(reply.data.value).Ok?
    ensures r.Ok? ==> |r.value| == |reply.data.value|
    ensures r.Ok? ==> forall k :: 0 <= k < |r.value| ==> r.value[k] == reply.data.value[k].url.value
    ensures r.Err? ==> r.error == KeyError
  {
    if reply.data.None? then Err(KeyError) else ItemUrls(reply.data.value)
  }

  /** A two-item reply gives its two URLs in order. */
  lemma TwoUrls()
    ensures DataUrls(DataReply(Some([DataItem(Some("http://x/1.png")), DataItem(Some("http://x/2.png"))])))
         == Ok(["http://x/1.png", "http://x/2.png"])
  {
    var items := [DataItem(Some("http://x/1.png")), DataItem(Some("http://x/2.png"))];
    var r := ItemUrls(items);
    assert items[0].url.Some? && items[1].url.Some?;
    assert r.Ok? && |r.value| == 2;
    assert r.value[0] == "http://x/1.png" && r.value[1] == "http://x/2.png";
    assert r.value == ["http://x/1.png", "http://x/2.png"];
    assert DataUrls(DataReply(Some(items))) == r;
  }
}

=== FILE: results.dfy ===
/** Failure-compatible wrappers used throughout the model: Python's `None`
    becomes `Option.None`, and an exception raised inside a handler becomes
    `Result.Err` carrying a description of the failure. */
module Results {

  datatype Option<+T> = None | Some(value: T) {

    predicate IsFailure() {
      None?
    }

    function PropagateFailure<U>(): Option<U>
      requires None?
    {
      None
    }

    function Extract(): T
      requires Some?
    {
      value
    }

    /** `dict.get(key, default)` and `os.getenv(name, default)` */
    function GetOr(default: T): T {
      match this
      case Some(v) => v
      case None => default
    }
  }

  datatype Result<+T, +E> = Ok(value: T) | Err(error: E) {

    predicate IsFailure() {
      Err?
    }

    function PropagateFailure<U>(): Result<U, E>
      requires Err?
    {
      Err(error)
    }

    function Extract(): T
      requires Ok?
    {
      value
    }
  }
}

=== FILE: size_option.dfy ===
/** The `WIDTHxHEIGHTx(RATIO)` size options of the cover, gpt4o and jimeng
    pages, and the three ways the pages take them apart: integer width and
    height (cover), a `WxH` string (gpt4o), and the bare ratio (jimeng). */
module SizeOption {
  import opened Results
  import opened Text
  import opened Page

  /** The three parts an option text is made of. */
  datatype SizeSpec = SizeSpec(width: string, height: string, ratio: string)

  /** The `x(RATIO)` tail of an option. */
  function RatioSuffix(ratio: string): string {
    "x(" + ratio + ")"
  }

  /** The option text: `WIDTHxHEIGHTx(RATIO)`. */
  function Render(spec: SizeSpec): string {
    spec.width + "x" + spec.height + RatioSuffix(spec.ratio)
  }

  /** Width and height are canonical decimal numerals and the ratio has no `x`. */
  predicate WellFormed(spec: SizeSpec) {
    IsCanonical(spec.width) && IsCanonical(spec.height) && 'x' !in spec.ratio
  }

  /** The cover page's `size_options`, part by part. */
  const CoverSizeSpecs: seq<SizeSpec> := [
    SizeSpec("1024", "1024", "1:1"),
    SizeSpec("1024", "576", "16:9"),
    SizeSpec("576", "1024", "9:16"),
    SizeSpec("1024", "768", "4:3"),
    SizeSpec("768", "1024", "3:4"),
    SizeSpec("800", "1200", "2:3"),
    SizeSpec("1200", "800", "3:2")
  ]

  /** The page's `size_options`: each spec rendered, in order. */
  const CoverSizeOptions: seq<string> :=
    seq(|CoverSizeSpecs|, i requires 0 <= i < |CoverSizeSpecs| => Render(CoverSizeSpecs[i]))

  /** The cover page's default `size`, `"1024x576x(16:9)"`. */
  const CoverDefaultSize: string := Render(CoverSizeSpecs[1])

  /** The gpt4o page's `size_options`, part by part. */
  const Gpt4oSizeSpecs: seq<SizeSpec> := [
    SizeSpec("1024", "1024", "1:1"),
    SizeSpec("1024", "1536", "2:3"),
    SizeSpec("1536", "1024", "3:2")
  ]

  /** The page's `size_options`: each spec rendered, in order. */
  const Gpt4oSizeOptions: seq<string> :=
    seq(|Gpt4oSizeSpecs|, i requires 0 <= i < |Gpt4oSizeSpecs| => Render(Gpt4oSizeSpecs[i]))

  /** The gpt4o page's default `size`, `"1024x1024x(1:1)"`. */
  const Gpt4oDefaultSize: string := Render(Gpt4oSizeSpecs[0])

  /** The jimeng page's `size_options`, part by part. */
  const JimengSizeSpecs: seq<SizeSpec> := [
    SizeSpec("3024", "1296", "21:9"),
    SizeSpec("2560", "1440", "16:9"),
    SizeSpec("2496", "1664", "3:2"),
    SizeSpec("2304", "1728", "4:3"),
    SizeSpec("2048", "2048", "1:1"),
    SizeSpec("1728", "2304", "3:4"),
    SizeSpec("1664", "2496", "2:3"),
    SizeSpec("1440", "2560", "9:16")
  ]

  /** The page's `size_options`: each spec rendered, in order. */
  const JimengSizeOptions: seq<string> :=
    seq(|JimengSizeSpecs|, i requires 0 <= i < |JimengSizeSpecs| => Render(JimengSizeSpecs[i]))

  /** The jimeng page's default `size`, `"2048x2048x(1:1)"`. */
  const JimengDefaultSize: string := Render(JimengSizeSpecs[4])

  /** `size = s.split('x'); width = int(size[0]); height = int(size[1])`,
      with Python's evaluation order: a bad first field is a ValueError
      even when there is no second field. */
  function Dimensions(size: string): (r: Result<(int, int), ErrorKind>)
    ensures r.Ok? <==> (&& ParseInt(Split(size, 'x')[0]).Some?
                        && |Split(size, 'x')| >= 2
                        && ParseInt(Split(size, 'x')[1]).Some?)
    ensures r.Ok? ==> ParseInt(Split(size, 'x')[0]) == Some(r.value.0)
    ensures r.Ok? ==> ParseInt(Split(size, 'x')[1]) == Some(r.value.1)
    ensures ParseInt(Split(size, 'x')[0]).None? ==> r == Err(ValueError)
    ensures ParseInt(Split(size, 'x')[0]).Some? && |Split(size, 'x')| < 2 ==> r == Err(IndexError)
    ensures ParseInt(Split(size, 'x')[0]).Some? && |Split(size, 'x')| >= 2 && ParseInt(Split(size, 'x')[1]).None? ==>
      r == Err(ValueError)
  {
    var fields := Split(size, 'x');
    match ParseInt(fields[0])
    case None => Err(ValueError)
    case Some(width) =>
      if |fields| < 2 then Err(IndexError)
      else
        match ParseInt(fields[1])
        case None => Err(ValueError)
        case Some(height) => Ok((width, height))
  }

  /** gpt4o's `f"{width}x{height}"` */
  function WxH(size: string): (r: Result<string, ErrorKind>)
    ensures r.Ok? <==> Dimensions(size).Ok?
  {
    var (width, height) :- Dimensions(size);
    Ok(IntToString(width) + "x" + IntToString(height))
  }

  /** Python's `s[1:-1]`: the text without its first and last characters,
      empty when there are fewer than two. */
  function Inner(s: string): (r: string)
    ensures |s| >= 2 ==> [s[0]] + r + [s[|s| - 1]] == s
    ensures |s| < 2 ==> r == ""
  {
    if |s| >= 2 then s[1..|s| - 1] else ""
  }

  /** jimeng's `size.split('x')[2][1:-1]` */
  function Ratio(size: string): (r: Result<string, ErrorKind>)
    ensures r.Ok? <==> |Split(size, 'x')| >= 3
    ensures r.Err? ==> r.error == IndexError
  {
    var fields := Split(size, 'x');
    if |fields| < 3 then Err(IndexError) else Ok(Inner(fields[2]))
  }

  /** How an option text splits on `x`. */
  lemma SplitRender(spec: SizeSpec)
    requires IsDigits(spec.width) && IsDigits(spec.height)
    ensures Split(Render(spec), 'x') == [spec.width, spec.height] + Split("(" + spec.ratio + ")", 'x')
  {
    var w := spec.width;
    var h := spec.height;
    var tail := "(" + spec.ratio + ")";
    assert 'x' !in w && 'x' !in h by {
      assert !IsDigit('x');
    }
    assert Render(spec) == w + ['x'] + (h + ['x'] + tail);
    SplitAtSeparator(w, h + ['x'] + tail, 'x');
    SplitAtSeparator(h, tail, 'x');
    SplitWithoutSeparator(w, 'x');
    SplitWithoutSeparator(h, 'x');
  }

  /** The cover page reads back the two leading numbers of an option. */
  lemma DimensionsOfRender(spec: SizeSpec)
    requires IsDigits(spec.width) && IsDigits(spec.height)
    ensures Dimensions(Render(spec)) == Ok((DigitsValue(spec.width), DigitsValue(spec.height)))
  {
    SplitRender(spec);
  }

  /** gpt4o sends the option with its `x(RATIO)` tail cut off. */
  lemma WxHOfRender(spec: SizeSpec)
    requires IsCanonical(spec.width) && IsCanonical(spec.height)
    ensures var text := Render(spec);
      WxH(text) == Ok(text[..|text| - |RatioSuffix(spec.ratio)|])
  {
    DimensionsOfRender(spec);
    ValueToString(spec.width);
    ValueToString(spec.height);
    var text := Render(spec);
    assert text == (spec.width + "x" + spec.height) + RatioSuffix(spec.ratio);
  }

  /** jimeng sends the text between the parentheses. */
  lemma RatioOfRender(spec: SizeSpec)
    requires IsDigits(spec.width) && IsDigits(spec.height) && 'x' !in spec.ratio
    ensures Ratio(Render(spec)) == Ok(spec.ratio)
  {
    SplitRender(spec);
    var tail := "(" + spec.ratio + ")";
    assert 'x' !in tail;
    SplitWithoutSeparator(tail, 'x');
    assert tail[1..|tail| - 1] == spec.ratio;
  }

  /** Every option of the three pages is well formed. */
  lemma OptionsWellFormed()
    ensures forall i :: 0 <= i < |CoverSizeSpecs| ==> WellFormed(CoverSizeSpecs[i])
    ensures forall i :: 0 <= i < |Gpt4oSizeSpecs| ==> WellFormed(Gpt4oSizeSpecs[i])
    ensures forall i :: 0 <= i < |JimengSizeSpecs| ==> WellFormed(JimengSizeSpecs[i])
  {
    CoverWellFormed();
    Gpt4oWellFormed();
    JimengWellFormed();
  }

  lemma CoverWellFormed()
    ensures forall i :: 0 <= i < |CoverSizeSpecs| ==> WellFormed(CoverSizeSpecs[i])
  {
  }

  lemma Gpt4oWellFormed()
    ensures forall i :: 0 <= i < |Gpt4oSizeSpecs| ==> WellFormed(Gpt4oSizeSpecs[i])
  {
  }

  lemma JimengWellFormed()
    ensures forall i :: 0 <= i < |JimengSizeSpecs| ==> WellFormed(JimengSizeSpecs[i])
  {
  }

  /** Cover: for every option, width and height are its two leading numbers. */
  lemma CoverDimensions()
    ensures forall i :: 0 <= i < |CoverSizeOptions| ==>
      Dimensions(CoverSizeOptions[i])
        == Ok((DigitsValue(CoverSizeSpecs[i].width), DigitsValue(CoverSizeSpecs[i].height)))
  {
    OptionsWellFormed();
    forall i | 0 <= i < |CoverSizeOptions|
      ensures Dimensions(CoverSizeOptions[i])
        == Ok((DigitsValue(CoverSizeSpecs[i].width), DigitsValue(CoverSizeSpecs[i].height)))
    {
      DimensionsOfRender(CoverSizeSpecs[i]);
    }
  }

  /** gpt4o: for every option, the size sent is the option without its ratio tail. */
  lemma Gpt4oSizes()
    ensures forall i :: 0 <= i < |Gpt4oSizeOptions| ==>
      WxH(Gpt4oSizeOptions[i]) == Ok(Gpt4oSizeSpecs[i].width + "x" + Gpt4oSizeSpecs[i].height)
  {
    OptionsWellFormed();
    forall i | 0 <= i < |Gpt4oSizeOptions|
      ensures WxH(Gpt4oSizeOptions[i]) == Ok(Gpt4oSizeSpecs[i].width + "x" + Gpt4oSizeSpecs[i].height)
    {
      var spec := Gpt4oSizeSpecs[i];
      WxHOfRender(spec);
      assert Render(spec) == (spec.width + "x" + spec.height) + RatioSuffix(spec.ratio);
    }
  }

  /** jimeng: for every option, the ratio sent is the text between the parentheses. */
  lemma JimengRatios()
    ensures forall i :: 0 <= i < |JimengSizeOptions| ==>
      Ratio(JimengSizeOptions[i]) == Ok(JimengSizeSpecs[i].ratio)
  {
    OptionsWellFormed();
    forall i | 0 <= i < |JimengSizeOptions|
      ensures Ratio(JimengSizeOptions[i]) == Ok(JimengSizeSpecs[i].ratio)
    {
      RatioOfRender(JimengSizeSpecs[i]);
    }
  }

  /** Each page's default size is one of its options. */
  lemma DefaultsAreOptions()
    ensures CoverDefaultSize in CoverSizeOptions
    ensures Gpt4oDefaultSize in Gpt4oSizeOptions
    ensures JimengDefaultSize in JimengSizeOptions
  {
    assert CoverSizeOptions[1] == CoverDefaultSize;
    assert Gpt4oSizeOptions[0] == Gpt4oDefaultSize;
    assert JimengSizeOptions[4] == JimengDefaultSize;
  }

  /** The cover page's options, written out. */
  lemma CoverOptionTexts()
    ensures CoverSizeOptions == [
      "1024x1024x(1:1)", "1024x576x(16:9)", "576x1024x(9:16)", "1024x768x(4:3)",
      "768x1024x(3:4)", "800x1200x(2:3)", "1200x800x(3:2)"]
  {
    CoverOptions1();
    CoverOptions2();
    CoverOptions3();
  }

  lemma CoverOptions1()
    ensures CoverSizeOptions[0] == "1024x1024x(1:1)"
    ensures CoverSizeOptions[1] == "1024x576x(16:9)"
  {
  }

  lemma CoverOptions2()
    ensures CoverSizeOptions[2] == "576x1024x(9:16)"
    ensures CoverSizeOptions[3] == "1024x768x(4:3)"
  {
  }

  lemma CoverOptions3()
    ensures CoverSizeOptions[4] == "768x1024x(3:4)"
    ensures CoverSizeOptions[5] == "800x1200x(2:3)"
    ensures CoverSizeOptions[6] == "1200x800x(3:2)"
  {
  }

  /** The gpt4o page's options, written out. */
  lemma Gpt4oOptionTexts()
    ensures Gpt4oSizeOptions == ["1024x1024x(1:1)", "1024x1536x(2:3)", "1536x1024x(3:2)"]
  {
    assert Gpt4oSizeOptions[0] == "1024x1024x(1:1)";
    assert Gpt4oSizeOptions[1] == "1024x1536x(2:3)";
    assert Gpt4oSizeOptions[2] == "1536x1024x(3:2)";
  }

  /** The jimeng page's options, written out. */
  lemma JimengOptionTexts()
    ensures JimengSizeOptions == [
      "3024x1296x(21:9)", "2560x1440x(16:9)", "2496x1664x(3:2)", "2304x1728x(4:3)",
      "2048x2048x(1:1)", "1728x2304x(3:4)", "1664x2496x(2:3)", "1440x2560x(9:16)"]
  {
    JimengOptions1();
    JimengOptions2();
    JimengOptions3();
    JimengOptions4();
  }

  lemma JimengOptions1()
    ensures JimengSizeOptions[0] == "3024x1296x(21:9)"
    ensures JimengSizeOptions[1] == "2560x1440x(16:9)"
  {
  }

  lemma JimengOptions2()
    ensures JimengSizeOptions[2] == "2496x1664x(3:2)"
    ensures JimengSizeOptions[3] == "2304x1728x(4:3)"
  {
  }

  lemma JimengOptions3()
    ensures JimengSizeOptions[4] == "2048x2048x(1:1)"
    ensures JimengSizeOptions[5] == "1728x2304x(3:4)"
  {
  }

  lemma JimengOptions4()
    ensures JimengSizeOptions[6] == "1664x2496x(2:3)"
    ensures JimengSizeOptions[7] == "1440x2560x(9:16)"
  {
  }

  /** The defaults, written out. */
  lemma DefaultTexts()
    ensures CoverDefaultSize == "1024x576x(16:9)"
    ensures Gpt4oDefaultSize == "1024x1024x(1:1)"
    ensures JimengDefaultSize == "2048x2048x(1:1)"
  {
  }
}

=== FILE: text.dfy ===
/** The handful of Python string built-ins the pages rely on, with their
    Python semantics: `str.split` on one separator character, `sep.join`,
    `s.split(sep)[0]` and `s.split(sep)[-1]`, `str.startswith`, a
    case-insensitive substring search (the `re.IGNORECASE` part of
    `re.search`), `int(s)` and `str(i)` for decimal integers. */
module Text {
  import opened Results

  // ---------------------------------------------------------------------
  // split / join

  /** `s.split(sep)`: never empty, and no piece contains the separator. */
  function Split(s: string, sep: char): (parts: seq<string>)
    ensures |parts| >= 1
    ensures forall k :: 0 <= k < |parts| ==> sep !in parts[k]
    decreases |s|
  {
    if |s| == 0 then [""]
    else
      var rest := Split(s[1..], sep);
      if s[0] == sep then [""] + rest
      else [[s[0]] + rest[0]] + rest[1..]
  }

  /** `sep.join(parts)` */
  function Join(parts: seq<string>, sep: char): string
  {
    if |parts| == 0 then ""
    else if |parts| == 1 then parts[0]
    else parts[0] + [sep] + Join(parts[1..], sep)
  }

  /** Joining the pieces back with the separator gives the original string. */
  lemma {:induction false} JoinSplit(s: string, sep: char)
    ensures Join(Split(s, sep), sep) == s
    decreases |s|
  {
    if |s| > 0 {
      var rest := Split(s[1..], sep);
      JoinSplit(s[1..], sep);
      if s[0] == sep {
        assert ([""] + rest)[1..] == rest;
      } else {
        var parts := Split(s, sep);
        assert parts[1..] == rest[1..];
        if |rest| > 1 {
          assert Join(rest, sep) == rest[0] + [sep] + Join(rest[1..], sep);
        }
      }
    }
  }

  /** A string without the separator is its own single piece. */
  lemma {:induction false} SplitWithoutSeparator(s: string, sep: char)
    requires sep !in s
    ensures Split(s, sep) == [s]
    decreases |s|
  {
    if |s| > 0 {
      SplitWithoutSeparator(s[1..], sep);
      assert [s[0]] + s[1..] == s;
    }
  }

  /** Splitting distributes over a separator occurrence. */
  lemma {:induction false} SplitAtSeparator(a: string, b: string, sep: char)
    ensures Split(a + [sep] + b, sep) == Split(a, sep) + Split(b, sep)
    decreases |a|
  {
    if |a| == 0 {
      assert (a + [sep] + b)[1..] == b;
    } else {
      var a' := a[1..] + [sep] + b;
      assert a + [sep] + b == [a[0]] + a';
      assert a == [a[0]] + a[1..];
      SplitAtSeparator(a[1..], b, sep);
      SplitCons(a[0], a', sep);
      SplitCons(a[0], a[1..], sep);
      var head := Split(a[1..], sep);
      var tail := Split(b, sep);
      assert Split(a', sep) == head + tail;
      if a[0] != sep {
        ConsFirst([a[0]] + head[0], head, tail);
      }
    }
  }

  /** Replacing the first piece of a list commutes with appending. */
  lemma ConsFirst(first: string, head: seq<string>, tail: seq<string>)
    requires |head| >= 1
    ensures [first] + (head + tail)[1..] == ([first] + head[1..]) + tail
  {
    assert (head + tail)[1..] == head[1..] + tail;
  }

  /** How `Split` treats the first character. */
  lemma SplitCons(c: char, t: string, sep: char)
    ensures Split([c] + t, sep) ==
      if c == sep then [""] + Split(t, sep)
      else [[c] + Split(t, sep)[0]] + Split(t, sep)[1..]
  {
    assert ([c] + t)[0] == c && ([c] + t)[1..] == t;
  }

  /** The other direction of `JoinSplit`: a non-empty list of separator-free
      pieces is recovered by splitting its join. */
  lemma {:induction false} SplitJoin(parts: seq<string>, sep: char)
    requires |parts| >= 1
    requires forall k :: 0 <= k < |parts| ==> sep !in parts[k]
    ensures Split(Join(parts, sep), sep) == parts
    decreases |parts|
  {
    if |parts| == 1 {
      SplitWithoutSeparator(parts[0], sep);
    } else {
      SplitJoin(parts[1..], sep);
      SplitWithoutSeparator(parts[0], sep);
      SplitAtSeparator(parts[0], Join(parts[1..], sep), sep);
      assert [parts[0]] + parts[1..] == parts;
    }
  }

  /** `s.split(sep)[0]` */
  function FirstSegment(s: string, sep: char): string
  {
    Split(s, sep)[0]
  }

  /** `s.split(sep)[-1]` */
  function LastSegment(s: string, sep: char): string
  {
    var parts := Split(s, sep);
    parts[|parts| - 1]
  }

  /** The first piece is the longest separator-free prefix. */
  lemma {:induction false} FirstSegmentIsPrefix(s: string, sep: char)
    ensures var r := FirstSegment(s, sep);
      && |r| <= |s| && r == s[..|r|] && sep !in r
      && (|r| == |s| || s[|r|] == sep)
    decreases |s|
  {
    if |s| > 0 && s[0] != sep {
      FirstSegmentIsPrefix(s[1..], sep);
    }
  }

  /** Joining peels off the last piece behind one separator. */
  lemma {:induction false} JoinLast(parts: seq<string>, sep: char)
    requires |parts| >= 2
    ensures Join(parts, sep) == Join(parts[..|parts| - 1], sep) + [sep] + parts[|parts| - 1]
    decreases |parts|
  {
    if |parts| > 2 {
      JoinLast(parts[1..], sep);
      assert parts[1..][..|parts| - 2] == parts[..|parts| - 1][1..];
    }
  }

  /** The last piece is the longest separator-free suffix. */
  lemma LastSegmentIsSuffix(s: string, sep: char)
    ensures var r := LastSegment(s, sep);
      && |r| <= |s| && r == s[|s| - |r|..] && sep !in r
      && (|r| == |s| || s[|s| - |r| - 1] == sep)
  {
    var parts := Split(s, sep);
    var r := parts[|parts| - 1];
    JoinSplit(s, sep);
    if |parts| >= 2 {
      JoinLast(parts, sep);
      var front := Join(parts[..|parts| - 1], sep);
      assert s == front + [sep] + r;
      assert s[|s| - |r| - 1] == sep;
    }
  }

  /** Conversely, the longest separator-free suffix is the last piece. */
  lemma LastSegmentUnique(s: string, sep: char, r: string)
    requires |r| <= |s| && r == s[|s| - |r|..] && sep !in r
    requires |r| == |s| || s[|s| - |r| - 1] == sep
    ensures r == LastSegment(s, sep)
  {
    var last := LastSegment(s, sep);
    LastSegmentIsSuffix(s, sep);
  }

  // ---------------------------------------------------------------------
  // prefixes and case-insensitive search

  /** `s.startswith(p)` */
  predicate StartsWith(s: string, p: string) {
    |p| <= |s| && s[..|p|] == p
  }

  /** ASCII lower-casing of one character. */
  function LowerAscii(c: char): char {
    if 'A' <= c <= 'Z' then (c as int + 32) as char else c
  }

  function Lower(s: string): string {
    seq(|s|, k requires 0 <= k < |s| => LowerAscii(s[k]))
  }

  /** `pat` occurs in `text` at index `k`, ignoring ASCII case. */
  predicate OccursCI(text: string, pat: string, k: int) {
    0 <= k && k + |pat| <= |text| && Lower(text[k..k + |pat|]) == Lower(pat)
  }

  predicate StartsWithCI(s: string, p: string) {
    OccursCI(s, p, 0)
  }

  predicate EndsWithCI(s: string, p: string) {
    |p| <= |s| && OccursCI(s, p, |s| - |p|)
  }

  /** The first index at or after `from` where `pat` occurs, ignoring ASCII
      case, or None when there is none. */
  function FindCI(text: string, pat: string, from: nat): (r: Option<nat>)
    ensures r.Some? ==> from <= r.value && OccursCI(text, pat, r.value)
    ensures r.Some? ==> forall k :: from <= k < r.value ==> !OccursCI(text, pat, k)
    ensures r.None? ==> forall k :: from <= k ==> !OccursCI(text, pat, k)
    decreases |text| - from
  {
    if from + |pat| > |text| then None
    else if OccursCI(text, pat, from) then Some(from)
    else FindCI(text, pat, from + 1)
  }

  // ---------------------------------------------------------------------
  // int(s) and str(i)

  predicate IsDigit(c: char) {
    '0' <= c <= '9'
  }

  /** A non-empty run of ASCII decimal digits. */
  predicate IsDigits(s: string) {
    |s| > 0 && forall k :: 0 <= k < |s| ==> IsDigit(s[k])
  }

  function DigitsValue(s: string): nat
    requires forall k :: 0 <= k < |s| ==> IsDigit(s[k])
    decreases |s|
  {
    if |s| == 0 then 0
    else
      assert IsDigit(s[|s| - 1]);
      DigitsValue(s[..|s| - 1]) * 10 + (s[|s| - 1] as int - '0' as int)
  }

  /** `int(s)` on a string: an optional sign followed by decimal digits;
      anything else raises ValueError, modelled as None. */
  function ParseInt(s: string): (r: Option<int>)
    ensures r.Some? <==> IsDigits(s) || (|s| > 1 && (s[0] == '-' || s[0] == '+') && IsDigits(s[1..]))
    ensures IsDigits(s) ==> r == Some(DigitsValue(s))
    ensures |s| > 1 && s[0] == '+' && IsDigits(s[1..]) ==> r == Some(DigitsValue(s[1..]))
    ensures |s| > 1 && s[0] == '-' && IsDigits(s[1..]) ==> r == Some(0 - DigitsValue(s[1..]))
  {
    if |s| > 0 && (s[0] == '-' || s[0] == '+') then
      if IsDigits(s[1..]) then
        var magnitude: int := DigitsValue(s[1..]);
        Some(if s[0] == '-' then -magnitude else magnitude)
      else None
    else if IsDigits(s) then Some(DigitsValue(s))
    else None
  }

  function Digit(d: nat): char
    requires d < 10
  {
    ('0' as int + d) as char
  }

  /** `str(n)` for a natural number: digits only, without leading zeros. */
  function NatToString(n: nat): (r: string)
    ensures IsDigits(r)
    ensures r[0] == '0' ==> n == 0
    decreases n
  {
    if n < 10 then [Digit(n)] else NatToString(n / 10) + [Digit(n % 10)]
  }

  /** `str(i)` for an integer. */
  function IntToString(i: int): (r: string)
    ensures i >= 0 ==> IsCanonical(r)
    ensures i < 0 ==> |r| > 1 && r[0] == '-' && IsCanonical(r[1..])
  {
    if i < 0 then "-" + NatToString(-i) else NatToString(i)
  }

  /** Reading the decimal rendering of `n` gives `n` back. */
  lemma {:induction false} NatToStringValue(n: nat)
    ensures DigitsValue(NatToString(n)) == n
    decreases n
  {
    if n >= 10 {
      NatToStringValue(n / 10);
      var s := NatToString(n);
      assert s[..|s| - 1] == NatToString(n / 10);
    }
  }

  /** Digits as `str` writes them: no leading zero unless the number is 0. */
  predicate IsCanonical(s: string) {
    IsDigits(s) && (s[0] != '0' || |s| == 1)
  }

  lemma {:induction false} DigitsValuePositive(s: string)
    requires IsDigits(s) && s[0] != '0'
    ensures DigitsValue(s) > 0
    decreases |s|
  {
    if |s| > 1 {
      DigitsValuePositive(s[..|s| - 1]);
    }
  }

  /** `str(int(s)) == s` for canonical digit strings: the other direction
      of `NatToStringValue`. */
  lemma {:induction false} ValueToString(s: string)
    requires IsCanonical(s)
    ensures NatToString(DigitsValue(s)) == s
    decreases |s|
  {
    if |s| > 1 {
      var front := s[..|s| - 1];
      assert front[0] == s[0];
      DigitsValuePositive(front);
      ValueToString(front);
      var d := s[|s| - 1] as int - '0' as int;
      var n := DigitsValue(s);
      assert n == DigitsValue(front) * 10 + d && 0 <= d < 10;
      assert n / 10 == DigitsValue(front) && n % 10 == d;
      assert s == front + [Digit(d)];
    }
  }

  /** `int(str(i)) == i` */
  lemma ParseIntToString(i: int)
    ensures ParseInt(IntToString(i)) == Some(i)
  {
    var t := IntToString(i);
    if i < 0 {
      NatToStringValue(-i);
      assert t[0] == '-' && t[1..] == NatToString(-i);
    } else {
      NatToStringValue(i);
      assert IsDigit(t[0]);
    }
  }

  /** `str(i)` never contains a letter, so in particular no `x` separator. */
  lemma IntToStringHasNoLetter(i: int, c: char)
    requires c != '-' && !IsDigit(c)
    ensures c !in IntToString(i)
  {
    var s := IntToString(i);
    if i < 0 {
      assert s == "-" + NatToString(-i);
      assert forall k :: 1 <= k < |s| ==> s[k] == NatToString(-i)[k - 1];
    }
  }
}

=== FILE: upload.dfy ===
/** `handle_upload`, identical on the gemini and kontext pages: every
    uploaded file is stored under its content digest plus its original
    extension, and the page remembers the last one stored. The digest (an
    MD5 hex digest in the source) is a parameter; writing the file to the
    upload directory is not modelled, only the name it is written under. */
module Upload {
  import opened Text
  import Base64
  import CommonTool

  datatype UploadFile = UploadFile(name: string, content: seq<Base64.byte>)

  datatype UploadState = UploadState(uploadImg: string, errorMsg: string, uploading: bool)

  /** The message set when no file was chosen. */
  const SizeHint := "请选择10MB以内的图片"

  /** `f"{md5}.{ext}"` with `ext = name.split('.')[-1]`: the stored name
      starts with the digest and a dot, and keeps the original extension
      whatever the digest holds. */
  function UploadName(digest: string, name: string): (r: string)
    ensures StartsWith(r, digest + ".")
    ensures LastSegment(r, '.') == LastSegment(name, '.')
  {
    var ext := LastSegment(name, '.');
    LastSegmentIsSuffix(name, '.');
    var r := digest + "." + ext;
    assert r[|r| - |ext|..] == ext;
    assert |ext| == |r| || r[|r| - |ext| - 1] == '.';
    LastSegmentUnique(r, '.', ext);
    assert r[..|digest + "."|] == digest + ".";
    r
  }

  /** The names the files are stored under, in upload order. */
  function StoredNames(files: seq<UploadFile>, digest: seq<Base64.byte> -> string): (names: seq<string>)
    ensures |names| == |files|
    ensures forall k :: 0 <= k < |files| ==>
      names[k] == UploadName(digest(files[k].content), files[k].name)
    decreases |files|
  {
    if |files| == 0 then []
    else [UploadName(digest(files[0].content), files[0].name)] + StoredNames(files[1..], digest)
  }

  /** The loop `for file in files: ... self.upload_img = filename`: each
      stored name replaces the previous one. */
  function LastStored(names: seq<string>, current: string): (r: string)
    ensures |names| == 0 ==> r == current
    ensures |names| > 0 ==> r == names[|names| - 1]
    decreases |names|
  {
    if |names| == 0 then current else LastStored(names[1..], names[0])
  }

  /** One `handle_upload` call: the new state and the names written. */
  function HandleUpload(st: UploadState, files: seq<UploadFile>, digest: seq<Base64.byte> -> string)
    : (r: (UploadState, seq<string>))
    ensures |files| == 0 ==> r.0.errorMsg == SizeHint && r.0.uploadImg == st.uploadImg && r.1 == []
    ensures |files| > 0 ==> (r.0.errorMsg == ""
      && r.0.uploadImg == UploadName(digest(files[|files| - 1].content), files[|files| - 1].name))
    ensures r.1 == StoredNames(files, digest)
    ensures |r.1| == |files|
    ensures !r.0.uploading
  {
    var names := StoredNames(files, digest);
    var msg := if |files| == 0 then SizeHint else "";
    (UploadState(LastStored(names, st.uploadImg), msg, false), names)
  }

  /** A stored name splits back into the digest and the original extension
      when the digest has no dot (a hex digest never has). */
  lemma UploadNameSplits(digest: string, name: string)
    requires '.' !in digest
    ensures Split(UploadName(digest, name), '.') == [digest, LastSegment(name, '.')]
  {
    var ext := LastSegment(name, '.');
    LastSegmentIsSuffix(name, '.');
    SplitAtSeparator(digest, ext, '.');
    SplitWithoutSeparator(digest, '.');
    SplitWithoutSeparator(ext, '.');
    assert digest + "." + ext == digest + ['.'] + ext;
  }

  /** The stored file keeps the MIME type of the original name, so
      `image_to_base64` on the stored name announces the uploaded type. */
  lemma UploadNameKeepsMimeType(digest: string, name: string)
    ensures CommonTool.MimeType(UploadName(digest, name)) == CommonTool.MimeType(name)
  {
  }
}
